=== FILE: README.md ===
# Website screenshot and mockup generator — a Dafny model

The system takes a project (a name and a website URL) and produces, for
each requested device class (mobile, tablet, desktop), a screenshot of the
site at the first viewport of that class. It then frames that screenshot in
a drawn device "mockup". There are two generations of the core:

- The Django app (`screenshots/`):
  - `ScreenshotService` tries Playwright, then Selenium, then draws a
    placeholder image.
  - `MockupService` pastes the screenshot, scaled to fit, into a
    fixed-size device with a stepped drop shadow.
  - Two JSON views and two background jobs record each successful capture
    as a `Screenshot` row, with paths relative to the media root.
- The Flask app:
  - `screenshot_service.py` tries Playwright, then the placeholder.
  - `mockup_service.py` grows the canvas around an unscaled screenshot.
  - `api_routes.py` creates projects and generates screenshots.

The model keeps everything that decides what happens and which files and
records come out. That covers:

- the device catalog;
- the fallback order of the capture backends;
- the deterministic file names;
- the mockup geometry;
- the folder layout and relative paths;
- the request handling, including every error status and message;
- the "skip this device and carry on" loops.

Browsers, Pillow, the file system and the database are oracles: datatypes
that say which of their calls raise and what they return. The k-th call of
a loop meets the k-th entry of such an oracle.

Modules:

- `Wrappers`: `Option` and `Result`.
- `Text`: Python string and `os.path` helpers.
- `Json`: decoded request bodies with Python's truthiness, `in`, `[]`,
  `.get` and iteration.
- `Geometry`: boxes.
- `Catalog`: the device table.
- `Naming`: file names.
- `Capture`: `screenshots/services.py`, capture.
- `LegacyCapture`: `screenshot_service.py`.
- `Mockup`: `screenshots/services.py`, mockup.
- `FramedMockup`: `mockup_service.py`.
- `Storage`: `screenshots/models.py` and `make_relative_path`.
- `Seqs`: order-preserving selection and the fail-fast loop.
- `Replies`: shared reply shapes.
- `Tasks`: `screenshots/tasks.py`.
- `Api`: `api_routes.py`.
- `Views`: `screenshots/views.py`.

## Model

| member | source | states |
|---|---|---|
| Catalog.ParseClass | screenshots/services.py:41-42 | A device type is accepted exactly when it is one of the three class keys, and it names that class. |
| Catalog.ClassNamesInOrder | screenshots/services.py:20-36 | The class table has three keys, in the order mobile, tablet, desktop, and each key parses back to its class. |
| Catalog.Profiles | screenshot_service.py:10-26 | Each class lists three viewport profiles, all of positive size. The same table appears in screenshots/services.py:20-36. |
| Catalog.Representative | screenshots/services.py:48-49 | A capture uses the first profile of its class, which has a positive size. |
| Catalog.RepresentativeProfiles | screenshots/services.py:20-36 | The first profiles are iPhone 12 at 390x844, iPad Pro at 1024x1366 and Desktop 1920x1080 at 1920x1080. |
| Naming.SafeDeviceName | screenshots/services.py:104 | Spaces become underscores, and each upper-case letter becomes its lower-case letter. Every other character, and the length, is kept. |
| Naming.SafeDeviceNameIdempotent | screenshots/services.py:104 | Making a safe name safe again changes nothing. |
| Naming.CaptureFilenameRoundTrip | screenshots/services.py:104-106 | The file name `{safe}_{w}x{h}.png` parses back to the safe name, the width and the height. |
| Naming.CaptureFilenameInjective | screenshots/services.py:158-161 | Two captures share a file name only when their safe names and both dimensions agree. |
| Naming.MockupFilename | screenshots/services.py:334-337 | The mockup's name is `mockup_` plus the screenshot's base name. Splitting off and re-adding the extension changes nothing, and the result has no '/'. |
| Text.Decimal | screenshots/services.py:105 | `str(n)` is a non-empty string of digits with no leading zero. |
| Text.DecimalRoundTrip | screenshots/services.py:105 | Parsing `str(n)` gives n back. |
| Text.DecimalInjective | screenshots/models.py:28 | Different numbers print differently. |
| Text.Lower | screenshots/services.py:104 | `lower()` keeps the length, maps each upper-case letter 32 code points up, and keeps every other character. |
| Text.Replace | screenshots/services.py:104 | A one-character replace keeps the length, replaces every occurrence and keeps every other character. |
| Text.ReplaceAbsent | screenshots/tasks.py:10 | Replacing a character that does not occur changes nothing. |
| Text.Basename | screenshots/models.py:63-71 | The base name is the suffix after the last '/', or the whole path when it has none. |
| Text.Join | screenshots/models.py:25-36 | `os.path.join` returns an absolute second part unchanged. Otherwise it gives the first part, one '/' and the second part. |
| Text.BasenameOfJoin | screenshots/services.py:334-337 | The base name of a directory joined with a plain name is that name. |
| Text.JoinInjective | screenshots/models.py:25-28 | Joining two relative names onto the same directory gives the same path only when the names are equal. |
| Text.SplitExt | screenshots/services.py:335 | `splitext` splits a name into two parts whose concatenation is the name. The extension is empty or a single dot-led suffix. |
| Json.Lookup | screenshots/views.py:61-63 | A key is found exactly when some pair has it, and it gives the value of the key's last pair. |
| Json.Keys | api_routes.py:90 | A dict's keys are listed without duplicates, and they are exactly the keys of its pairs. |
| Json.KeysInFirstOrder | api_routes.py:90 | Iteration meets a dict's keys in the order of their first pairs, as a Python dict keeps insertion order. |
| Json.KeysAgreeWithLookup | api_routes.py:18 | A key is iterated exactly when a lookup finds it. |
| Json.In | api_routes.py:18 | `in` is membership in a dict or list and a substring test on a string, so a string body holding "name" passes the check. It raises on every other type. |
| Json.Index | api_routes.py:22-23 | Subscripting with a string succeeds only on a dict that holds the key. |
| Json.DictGet | screenshots/views.py:61-63 | Only a dict has `get`. Any other value raises with the type's name in the message. |
| Json.Iterate | api_routes.py:90 | Iterating gives a list's items, a dict's keys in order or a string's characters. It raises on every other type. |
| Capture.SuccessRecord | screenshots/services.py:114-121 | A successful capture reports the profile's name and size. Its path is the folder joined with its file name. |
| Capture.PlaywrightCapture | screenshots/services.py:66-121 | Playwright raises exactly when the launch or the screenshot raises. Otherwise it returns the success record. |
| Capture.NavigationFailureSwallowed | screenshots/services.py:97-101 | A failed page load never changes Playwright's outcome. |
| Capture.SeleniumCapture | screenshots/services.py:123-181 | Selenium raises exactly when one of its steps raises, which is re-raised. Otherwise it returns the success record. |
| Capture.PlaceholderCapture | screenshots/services.py:183-239 | The placeholder never raises. It fails exactly when saving fails, and otherwise returns the success record. |
| Capture.BackendsAgree | screenshots/services.py:104-121 | Any two backends that succeed for a profile return the same record. |
| Capture.Fallback | screenshots/services.py:52-60 | The backends are tried in chain order. Each one before the last tried raised, and the last one's return value is the result. |
| Capture.FallbackOrder | screenshots/services.py:52-60 | Selenium runs exactly when Playwright raised. The placeholder runs exactly when both browsers raised. A Playwright record is returned unchanged. |
| Capture.CaptureScreenshot | screenshots/services.py:38-64 | An unknown type fails with "Unsupported device type: ..." and tries no backend, and so does a folder error. Otherwise the result is exactly the fallback chain run on the class's first profile. A successful result is that profile's record in the folder. |
| Capture.MobileCapture | screenshots/services.py:48-49 | A successful mobile capture is iPhone 12 at 390x844, saved as `iphone_12_390x844.png`. |
| Capture.MobileFilename | screenshots/services.py:104-105 | The iPhone 12 profile's file name is `iphone_12_390x844.png`. |
| Capture.PlaceholderText | screenshots/services.py:201-211 | The placeholder writes nine lines. |
| Capture.DrawPlaceholder | screenshots/services.py:183-222 | The image has the profile's size. The k-th text line sits at y = 50 + 30k, centred to within a pixel. The border is 10 px inside the edge. screenshot_service.py:106-148 draws the same layout. |
| LegacyCapture.LegacyFallback | screenshot_service.py:39-97 | Only Playwright and the placeholder are ever tried, never Selenium. The placeholder runs exactly when Playwright raised, and its result is returned. |
| LegacyCapture.CaptureScreenshot | screenshot_service.py:28-104 | An unknown type fails with "Unsupported device type: ..." and tries nothing. A known type runs the two-stage chain on the first profile. Success gives that profile's record. |
| LegacyCapture.CaptureAllDevices | screenshot_service.py:171-182 | There is one result per class, in table order, and each is that class's capture. |
| LegacyCapture.CaptureAllDevicesTagged | screenshot_service.py:171-182 | Each entry carries its class key, and on success that class's record. |
| Mockup.CanvasSizes | screenshots/services.py:296-298 | The canvases are 200x400, 300x400 and 400x380. Only the desktop adds its stand below the body. |
| Mockup.FrameLayout | screenshots/services.py:384-417 | Each class's frame lies on its canvas, and the screen lies inside the body. No button, speaker or stand overlaps the screen. |
| Mockup.FloorScale | screenshots/services.py:365-366 | `int(n * scale)` is the floor of n·num/den, and it stays within the bound the smaller scale guarantees. |
| Mockup.ScaleWithin | screenshots/services.py:360-366 | A side scaled by the smaller of the two ratios stays within its target. |
| Mockup.ScaledSize | screenshots/services.py:360-366 | The aspect ratio is kept. The result fits the target, and one side equals the target side. |
| Mockup.Fit | screenshots/services.py:354-382 | A target with a zero side fails. Otherwise the result has the target's size. It is a centred, top-aligned copy of the scaled size, or the stretched screenshot when scaling gives nothing. |
| Mockup.ShadowLayers | screenshots/services.py:419-437 | Ten layers of the image's size, the i-th offset by 10 + i down and right with opacity exactly 20 − 2i. Every layer lies on the canvas grown to ShadowedSize. |
| Mockup.ShadowedSize | screenshots/services.py:419-437 | The shadow grows the image by 20 px each way and keeps it at the origin. A failed shadow keeps the image as it was. |
| Mockup.CreateMockup | screenshots/services.py:274-352 | A missing file, then an unknown class, give their fixed messages. The call succeeds exactly when the file, class, folder, decoding and save are all fine. The file is `mockup_` plus the base name in the folder, with the class's canvas size plus the shadow. |
| Mockup.ContentInsideScreen | screenshots/services.py:313-325 | Whatever the screenshot's size, the fitted image stays inside the device's screen area. |
| FramedMockup.CanvasOf | mockup_service.py:55-61 | The canvas is the screenshot plus the frame on every side, plus the stand below a desktop. |
| FramedMockup.RoundedRectangleFits | mockup_service.py:189-199 | The rounded rectangle's six pieces are proper boxes exactly when twice the radius fits each side. They then lie inside the outline. |
| FramedMockup.FrameLayout | mockup_service.py:107-187 | For every screenshot size the frame's pieces and details are proper boxes on the canvas, and the screenshot lies inside the outline. No button, camera, pole or base overlaps the screenshot. |
| FramedMockup.AddShadow | mockup_service.py:201-230 | The shadow keeps the image size and draws a box 10 px inside each edge. It is skipped exactly when that box would be inverted. |
| FramedMockup.ShadowAlwaysDrawn | mockup_service.py:81 | Every framed canvas is large enough for its shadow. |
| FramedMockup.CreateMockup | mockup_service.py:39-105 | The same error order and messages as Mockup.CreateMockup. A successful mockup is the screenshot's size plus twice the frame, plus the stand for a desktop. |
| Storage.DeviceTypesAreClasses | screenshots/models.py:42-46 | The stored device type keys are exactly the catalog's classes, in order. |
| Storage.ProjectFolderEnd | screenshots/models.py:25-28 | A project folder ends in its id's last digit, never in '/'. |
| Storage.ScreenshotSubfolders | screenshots/models.py:30-36 | The two screenshot folders are distinct children, each one '/' below the directory. |
| Storage.FolderLayout | screenshots/models.py:25-36 | The normal and mockup folders are distinct direct children of the project folder. |
| Storage.JoinCancel | screenshots/models.py:30-36 | Two directories that share a child path are equal. |
| Storage.ProjectFolderInjective | screenshots/models.py:25-28 | Distinct projects have distinct folders. |
| Storage.NormalFolderInjective | screenshots/models.py:30-32 | Distinct projects have distinct screenshot folders. |
| Storage.MockupFolderInjective | screenshots/models.py:34-36 | Distinct projects have distinct mockup folders. |
| Storage.StoredFilename | screenshots/models.py:63-71 | The file name is `None` exactly for an empty path. Otherwise it is a '/'-free suffix of the path. |
| Storage.StoredFilenameOfJoin | screenshots/models.py:63-71 | A stored path made by joining a plain name gives that name back. |
| Storage.SplitAppend | screenshots/tasks.py:10 | Splitting a path at '/' distributes over joining with '/'. |
| Storage.JoinSplit | screenshots/tasks.py:10 | Joining the '/'-split pieces with '/' gives back the path. |
| Storage.ComponentsOfJoin | screenshots/tasks.py:10 | The components of a joined path are the directory's components followed by those of the relative part. |
| Storage.CommonPrefixOfExtension | screenshots/tasks.py:10 | The common prefix of a component list and its extension is the whole list. |
| Storage.RelPath | screenshots/tasks.py:10 | `relpath` raises exactly on an empty path, and otherwise gives a non-empty path. |
| Storage.RelPathSelf | screenshots/tasks.py:10 | A path relative to itself is ".". |
| Storage.RelPathOfJoin | screenshots/tasks.py:10 | A path joined under a root is, relative to that root, the joined part in normal form. A part that is already normal comes back unchanged. |
| Storage.MakeRelative | screenshots/tasks.py:9-10 | `make_relative_path` raises exactly on an empty path. Its result is non-empty and has no backslash. |
| Storage.MakeRelativeOfJoin | screenshots/tasks.py:9-10 | A file stored under the media root is recorded as its path below the root. |
| Seqs.SelectAppend | screenshots/tasks.py:49-75 | Skipping failed entries distributes over concatenation. |
| Seqs.SelectPosition | screenshots/tasks.py:49-75 | Every kept entry is kept after exactly the kept entries before it. |
| Seqs.MapSelected | screenshots/views.py:119-163 | The loop succeeds exactly when every selected element's step succeeds, and it then gives the values in order. A failure is the first failing step's error. |
| Seqs.ValuesPosition | api_routes.py:90-121 | A turn that yields a row is reported after exactly the rows of the turns before it. |
| Replies.RequestedDevices | screenshots/views.py:103 | `get('devices', default)` succeeds exactly on a dict. It gives the value sent, or the three class keys when none was sent. |
| Replies.GeneratedMessageRoundTrip | api_routes.py:125-128 | The message "Generated n screenshots" gives back n. |
| Replies.GeneratedMessageInjective | screenshots/views.py:165-168 | Different counts give different messages. |
| Api.NormaliseUrl | api_routes.py:22-23 | The stored URL always has an http(s) scheme. It equals the input exactly when the input had one, and otherwise is "https://" plus the input. |
| Api.NormaliseUrlIdempotent | api_routes.py:22-23 | Normalising twice is normalising once. |
| Api.CreateProject | api_routes.py:12-42 | The status is 201, 400 or 500. 400 comes exactly for a falsy body or a missing key, with the fixed message. Success comes exactly for a dict with both keys, a string URL and a good commit. It stores the name as sent and the normalised URL. |
| Api.CreateKeepsSchemedUrl | api_routes.py:22-23 | A URL that has a scheme is stored as sent. |
| Api.ItemRecord | api_routes.py:90-121 | A row is added exactly for a class-key string whose capture succeeded and whose flush worked. It is the class's first profile in the normal folder, and its mockup path is `None` exactly when the mockup failed. |
| Api.Rows | api_routes.py:90-121 | There is one turn per iterated item, in order. |
| Api.GenerateScreenshots | api_routes.py:71-133 | The status is 200 or 500, with a fixed message on 500. Success comes exactly when the project exists, the body is a dict, the devices iterate and the folders and commit work. It reports the rows of every successful turn, in order, with their count. |
| Api.GenerateContinuesAfterFailure | api_routes.py:119-121 | A device that yields a row is reported even after earlier devices failed. |
| Api.DefaultDevicesAreAllClasses | api_routes.py:78 | Without a "devices" key the three classes are tried, in table order. |
| Views.CreateProject | screenshots/views.py:58-91 | A body that is not JSON gets 400 "Invalid JSON". A body whose bytes cannot be decoded gets 500 with the decode error, and a non-dict body gets 500 with the `get` error. 400 comes exactly for invalid JSON or a missing or falsy field; a missing or falsy field gets "Name and website_url are required". Success comes exactly when both fields are given and the insert works, storing both values as sent. An insert error is the 500's message. |
| Views.EmptyNameBackendsDisagree | screenshots/views.py:65-66 | For an empty name, the Flask route answers 201 and this view answers 400. |
| Views.ItemCapture | screenshots/views.py:119-128 | Only a class-key string is captured, in the project's normal folder. Every other item is passed over. |
| Views.Captures | screenshots/views.py:119-128 | There is one capture turn per item, in order. |
| Views.RecordFor | screenshots/views.py:130-159 | The row fails exactly when its insert fails, with that error. It carries the capture's fields, and its mockup path is empty exactly when the mockup failed. |
| Views.Successes | screenshots/views.py:119-121 | Only successful captures reach the row step. |
| Views.Make | screenshots/views.py:139-147 | For a captured item, the step is that item's row step: it succeeds exactly when its insert does, and otherwise carries the insert's error. |
| Views.CollectRecords | screenshots/views.py:119-163 | The loop succeeds exactly when every successful capture's insert works. It then gives their rows in order. Otherwise it fails with the error of the first insert that fails. |
| Views.GenerateScreenshots | screenshots/views.py:98-174 | A missing project gets 500 "No Project matches...". Invalid JSON gets 400, and undecodable bytes get 500 with the decode error. A non-dict gets 500 with the `get` error. A non-list gets 400 "devices must be a list". A folder error gets 500 with its message. Otherwise 200 comes exactly when every successful capture's insert works, with one row per successful capture, in list order, and the count message. Otherwise the reply is 500 with the error of the first insert that fails. |
| Tasks.DefaultDevices | screenshots/tasks.py:17 | An empty or missing device list becomes exactly mobile, tablet, desktop, in that order. A non-empty one is kept. |
| Tasks.DeviceFor | screenshots/tasks.py:28-35 | A listed device is its class with the class's first profile. |
| Tasks.DeviceList | screenshots/tasks.py:28-35 | Unknown keys are skipped. The known ones are listed in request order. |
| Tasks.DeviceListKeepsKnown | screenshots/tasks.py:28-35 | Every known key is listed after exactly the known keys before it. |
| Tasks.CaptureResults | screenshots/tasks.py:40-45 | There is one result per listed device, tagged with its class key. The i-th result is the call's answer for the i-th entry. |
| Tasks.RecordFor | screenshots/tasks.py:53-75 | The record fails exactly for an empty capture path (with "no path specified") or a failed insert (with the insert's error). It stores the path relative to the media root, and its mockup path is empty exactly when the mockup failed. |
| Tasks.CollectRecords | screenshots/tasks.py:49-75 | The loop succeeds exactly when every successful capture's record can be made. It then gives those records in capture order. Otherwise the result is the error of the first record that fails. |
| Tasks.JobSuccesses | screenshots/tasks.py:49-53 | The job's records are made only for successful captures. |
| Tasks.GenerateScreenshots | screenshots/tasks.py:13-82 | A missing project, then a folder error, then a raised capture call each end the job with their error. Past those, the job succeeds exactly when every successful capture's record can be made. It then gives each of those records, in capture order, with its id, relative paths and mockup path. Otherwise it fails with the error of the first record that fails. |
| Tasks.Regenerate | screenshots/tasks.py:87-153 | A missing row gives "Not found". A failed recapture gives the failure outcome with the row's id. On success the row keeps every field except that a missing mockup path is filled in exactly when the new mockup succeeds. The file is moved exactly when the new path differs from the stored one. Regeneration succeeds exactly when the row exists, the folders are made, the recapture succeeds, the move (if any) succeeds, a new mockup's path can be made relative and the save succeeds. Otherwise the first of these exceptions gives the error, with its own message. |

## Left out

- Browsers: launching, navigation, full-page capture, WebDriver options and timeouts are not modelled. They appear only as oracles saying which call raises.
- Pixels are not modelled: fonts, colours, anti-aliasing, the Gaussian blur and the LANCZOS resampling. Only sizes, positions and boxes are.
- Mockup.ScaledSize: the scale is the exact rational min(tw/ow, th/oh) and `int()` is a floor. Python's float arithmetic can round a product one pixel lower.
- Text.Lower: only ASCII letters are lowered. The device names in the table are ASCII.
- Storage.RelPath: modelled on '/'-separated components of two absolute or two relative paths without "..". Mixing an absolute with a relative path (where Python resolves against the working directory) and collapsing ".." are not modelled.
- Json: numbers are integers. Floats in a request body are not modelled.
- Database: sessions, transactions and autoincrement ids are oracles (`created`, `flushError`, `commitError`, `saveError`). The session state after a failed flush is not modelled.
- Tasks.CaptureResults: screenshots/tasks.py:40-45 and 114-120 call `capture_screenshot` with a list of devices and keyword arguments that screenshots/services.py:38 does not accept. That call is modelled as an oracle: an exception, or one result per position in the device list. The `raised` field covers the TypeError the call would raise against that signature.
- Celery scheduling, retries and task binding are left out. The jobs are modelled as plain calls.
- Side effects on disk are left out: `os.makedirs`, `shutil.move` and temporary files. Each is an error oracle.
- Logging is left out, since it has no effect on results.
- The other routes and views (project listing and detail, screenshot listing, deletion) are left out, together with `to_dict`, the admin, URL routing, the front-end script and the application setup. They only read or present stored rows.
- A remote screenshot API and a scrolling page driver are described for the system but do not exist in its code, so they are not modelled.

=== FILE: api.dfy ===
/** The Flask routes of api_routes.py that create a project and generate
    its screenshots, using the older capture service (screenshot_service.py)
    and compositor (mockup_service.py). Every unexpected exception becomes a
    500 with a fixed message. */
module Api {
  import opened Wrappers
  import opened Text
  import opened Catalog
  import opened Capture
  import opened LegacyCapture
  import opened Json
  import opened Seqs
  import opened Replies
  import FramedMockup
  import Mockup

  predicate HasScheme(url: string) {
    StartsWith(url, "http://") || StartsWith(url, "https://")
  }

  /** The URL fix-up of `create_project`: a URL without an http(s) scheme
      gets "https://" in front; any other is kept. */
  function NormaliseUrl(url: string): (r: string)
    ensures HasScheme(r)
    ensures r == url <==> HasScheme(url)
    ensures r != url ==> r == "https://" + url
  {
    if HasScheme(url) then url
    else
      assert ("https://" + url)[..8] == "https://";
      "https://" + url
  }

  /** Normalising twice is normalising once. */
  lemma NormaliseUrlIdempotent(url: string)
    ensures NormaliseUrl(NormaliseUrl(url)) == NormaliseUrl(url)
  {
  }

  const NameAndUrlRequired := "Name and website_url are required"
  const CreateFailed := "Failed to create project"

  /** The project `create_project` stores. */
  datatype NewProject = NewProject(name: Json, websiteUrl: string)

  /** The 400 check: a falsy body, or one without either key. */
  predicate MissingField(data: Json) {
    !Truthy(data) || In(data, "name") == Success(false) || In(data, "website_url") == Success(false)
  }

  /** `POST /projects`. `body` is what `request.get_json()` gives (or how it
      raised); `commitError` is the database commit's failure, if any. */
  function CreateProject(body: Result<Json>, commitError: Option<string>): (r: Reply<NewProject>)
    ensures r.status == 201 || r.status == 400 || r.status == 500
    ensures r.status == 201 <==> r.body.Success?
    ensures r.status == 400 <==> body.Success? && MissingField(body.value)
    ensures r.status == 400 ==> r.body == Failure(NameAndUrlRequired)
    ensures r.status == 500 ==> r.body == Failure(CreateFailed)
    ensures r.body.Success? <==>
              && body.Success? && body.value.JObj?
              && Lookup(body.value.fields, "name").Some?
              && Lookup(body.value.fields, "website_url").Some?
              && Lookup(body.value.fields, "website_url").value.JStr?
              && commitError.None?
    ensures r.body.Success? ==>
              && Some(r.body.value.name) == Lookup(body.value.fields, "name")
              && r.body.value.websiteUrl == NormaliseUrl(Lookup(body.value.fields, "website_url").value.s)
  {
    match body
    case Failure(_) => Reply(500, Failure(CreateFailed))
    case Success(data) =>
      if !Truthy(data) then Reply(400, Failure(NameAndUrlRequired))
      else match In(data, "name")
        case Failure(_) => Reply(500, Failure(CreateFailed))
        case Success(hasName) =>
          if !hasName then Reply(400, Failure(NameAndUrlRequired))
          else match In(data, "website_url")
            case Failure(_) => Reply(500, Failure(CreateFailed))
            case Success(hasUrl) =>
              if !hasUrl then Reply(400, Failure(NameAndUrlRequired))
              else match Index(data, "website_url")
                case Failure(_) => Reply(500, Failure(CreateFailed))
                case Success(url) =>
                  if !url.JStr? then Reply(500, Failure(CreateFailed))
                  else
                    var name := Index(data, "name");
                    if name.Failure? || commitError.Some? then Reply(500, Failure(CreateFailed))
                    else Reply(201, Success(NewProject(name.value, NormaliseUrl(url.s))))
  }

  /** A URL that already has a scheme is stored as sent. */
  lemma CreateKeepsSchemedUrl(body: Result<Json>, commitError: Option<string>)
    requires CreateProject(body, commitError).body.Success?
    requires HasScheme(Lookup(body.value.fields, "website_url").value.s)
    ensures CreateProject(body, commitError).body.value.websiteUrl == Lookup(body.value.fields, "website_url").value.s
  {
  }

  const GenerateFailed := "Failed to generate screenshots"

  /** `os.path.join('users', 'user1', f'project_{project_id}')` and its two
      subfolders, relative to the working directory. */
  function ApiProjectFolder(projectId: nat): string {
    Join(Join("users", "user1"), "project_" + Decimal(projectId))
  }

  function ApiNormalFolder(projectId: nat): string {
    Join(ApiProjectFolder(projectId), "normal_screenshots")
  }

  function ApiMockupFolder(projectId: nat): string {
    Join(ApiProjectFolder(projectId), "mockup_screenshots")
  }

  /** A row the route adds; `mockupPath` is `None` when the mockup failed. */
  datatype ApiRecord = ApiRecord(
    deviceType: string, deviceName: string, width: nat, height: nat,
    originalPath: string, mockupPath: Option<string>)

  /** What the route meets outside the model, per item of the device list
      (the k-th item's capture, mockup and flush) and once (folders, commit). */
  datatype ApiEnv = ApiEnv(
    folderError: Option<string>,
    capture: nat -> LegacyEnvironment,
    mockupIO: nat -> FramedMockup.FramedIO,
    flushError: nat -> Option<string>,
    commitError: Option<string>)

  /** The capture the route makes for the k-th item when it is a string. */
  function ItemCapture(key: string, k: nat, projectId: nat, env: ApiEnv): CaptureResult {
    LegacyCapture.CaptureScreenshot(key, ApiNormalFolder(projectId), env.capture(k)).result
  }

  /** The mockup the route makes for the k-th item's capture. */
  function ItemMockup(key: string, k: nat, projectId: nat, env: ApiEnv): Mockup.MockupResult
    requires ItemCapture(key, k, projectId, env).Captured?
  {
    FramedMockup.CreateMockup(ItemCapture(key, k, projectId, env).path, key, ApiMockupFolder(projectId), env.mockupIO(k))
  }

  /** One turn of the device loop. Only a string naming a class can be
      captured: the capture answers any other value, hashable or not, with
      a failure from its own `except`. A mockup is attempted only after a
      successful capture, and a failed flush is caught too. */
  function ItemRecord(item: Json, k: nat, projectId: nat, env: ApiEnv): (r: Option<ApiRecord>)
    ensures r.Some? <==>
              && item.JStr? && ParseClass(item.s).Some?
              && ItemCapture(item.s, k, projectId, env).Captured?
              && env.flushError(k).None?
    ensures r.Some? ==>
              var c := ItemCapture(item.s, k, projectId, env);
              && r.value.deviceType == item.s
              && r.value.originalPath == c.path
              && r.value.deviceName == c.deviceName && r.value.width == c.width && r.value.height == c.height
              && c == SuccessRecord(ApiNormalFolder(projectId), Representative(ParseClass(item.s).value))
              && (r.value.mockupPath.None? <==> ItemMockup(item.s, k, projectId, env).MockupFailed?)
  {
    if !item.JStr? then None
    else
      var c := ItemCapture(item.s, k, projectId, env);
      if !c.Captured? then None
      else
        var mockup := ItemMockup(item.s, k, projectId, env);
        if env.flushError(k).Some? then None
        else
          var mockupPath := if mockup.Mocked? then Some(mockup.path) else None;
          Some(ApiRecord(item.s, c.deviceName, c.width, c.height, c.path, mockupPath))
  }

  /** The loop's turn for each item, in order. */
  function Rows(items: seq<Json>, projectId: nat, env: ApiEnv): (r: seq<Option<ApiRecord>>)
    ensures |r| == |items|
    ensures forall k :: 0 <= k < |items| ==> r[k] == ItemRecord(items[k], k, projectId, env)
  {
    seq(|items|, k requires 0 <= k < |items| => ItemRecord(items[k], k, projectId, env))
  }

  /** `POST /projects/<id>/screenshots`. A missing project, a body that is
      not a dict, a device list that cannot be iterated, a folder error and
      a failed commit all give the 500; otherwise every item is tried in
      order and each one that yields a row is reported. */
  function GenerateScreenshots(projectExists: bool, projectId: nat, body: Result<Json>, env: ApiEnv)
    : (r: Reply<Generated<ApiRecord>>)
    ensures r.status == 200 || r.status == 500
    ensures r.status == 200 <==> r.body.Success?
    ensures r.status == 500 ==> r.body == Failure(GenerateFailed)
    ensures r.body.Success? <==>
              && projectExists && body.Success? && body.value.JObj?
              && RequestedDevices(body.value).Success? && Iterate(RequestedDevices(body.value).value).Success?
              && env.folderError.None? && env.commitError.None?
    ensures r.body.Success? ==>
              var items := Iterate(RequestedDevices(body.value).value).value;
              && r.body.value.screenshots == Values(Rows(items, projectId, env))
              && r.body.value.message == GeneratedMessage(|r.body.value.screenshots|)
  {
    if !projectExists then Reply(500, Failure(GenerateFailed))
    else match body
      case Failure(_) => Reply(500, Failure(GenerateFailed))
      case Success(data) =>
        match RequestedDevices(data)
        case Failure(_) => Reply(500, Failure(GenerateFailed))
        case Success(devices) =>
          if env.folderError.Some? then Reply(500, Failure(GenerateFailed))
          else match Iterate(devices)
            case Failure(_) => Reply(500, Failure(GenerateFailed))
            case Success(items) =>
              var generated := Values(Rows(items, projectId, env));
              if env.commitError.Some? then Reply(500, Failure(GenerateFailed))
              else Reply(200, Success(Generated(GeneratedMessage(|generated|), generated)))
  }

  /** A device whose turn yields a row is reported even when earlier turns
      failed: its row follows exactly the rows of the turns before it. */
  lemma GenerateContinuesAfterFailure(items: seq<Json>, projectId: nat, env: ApiEnv, k: nat)
    requires k < |items| && ItemRecord(items[k], k, projectId, env).Some?
    ensures var rows := Rows(items, projectId, env);
            var before := |Values(rows[..k])|;
            before < |Values(rows)| && Values(rows)[before] == ItemRecord(items[k], k, projectId, env).value
  {
    ValuesPosition(Rows(items, projectId, env), k);
  }

  /** Without a "devices" key the three device classes are tried, in table
      order. */
  lemma DefaultDevicesAreAllClasses(data: Json)
    requires data.JObj? && Lookup(data.fields, "devices").None?
    ensures Iterate(RequestedDevices(data).value) == Success([JStr("mobile"), JStr("tablet"), JStr("desktop")])
    ensures forall c :: JStr(ClassName(c)) in Iterate(RequestedDevices(data).value).value
  {
  }
}

=== FILE: capture.dfy ===
/** `ScreenshotService` of screenshots/services.py: one capture per call, for
    the first profile of the requested class, through the fallback chain
    Playwright, then Selenium, then a drawn placeholder. The browsers and
    the disk are oracles: an `Environment` says which of their calls raise. */
module Capture {
  import opened Wrappers
  import opened Text
  import opened Catalog
  import opened Naming
  import opened Geometry

  /** The dictionary a capture returns: on success where the file went and
      which device and size it shows; otherwise the error message. */
  datatype CaptureResult =
    | Captured(path: string, deviceName: string, width: nat, height: nat, filename: string)
    | CaptureFailed(error: string)

  /** A capture result tagged with the device type key it was taken for. */
  datatype TaggedResult = TaggedResult(deviceType: string, result: CaptureResult)

  /** Playwright's behaviour in one call: launching Chromium may raise,
      navigation may raise (and is swallowed), the screenshot may raise. */
  datatype PlaywrightRun = PlaywrightRun(
    launchError: Option<string>,
    navigationError: Option<string>,
    screenshotError: Option<string>)

  /** Selenium's behaviour in one call: any failing step raises. */
  datatype SeleniumRun = SeleniumRun(error: Option<string>)

  /** The placeholder's behaviour in one call: writing the PNG may fail. */
  datatype PlaceholderRun = PlaceholderRun(saveError: Option<string>)

  /** Everything outside the model that one `capture_screenshot` call meets:
      creating the output folder, and the three backends. */
  datatype Environment = Environment(
    folderError: Option<string>,
    playwright: PlaywrightRun,
    selenium: SeleniumRun,
    placeholder: PlaceholderRun)

  datatype Backend = Playwright | Selenium | Placeholder

  const ChainOrder: seq<Backend> := [Playwright, Selenium, Placeholder]

  /** A backend call either returns a record or raises. */
  datatype Outcome = Returned(result: CaptureResult) | Raised(error: string)

  /** The success record all three backends build for a profile. */
  function SuccessRecord(folder: string, p: Profile): (r: CaptureResult)
    ensures r.Captured?
    ensures r.deviceName == p.name && r.width == p.width && r.height == p.height
    ensures r.path == Join(folder, r.filename)
  {
    var filename := CaptureFilename(p.name, p.width, p.height);
    Captured(Join(folder, filename), p.name, p.width, p.height, filename)
  }

  function PlaywrightCapture(folder: string, p: Profile, run: PlaywrightRun): (o: Outcome)
    ensures o.Raised? <==> run.launchError.Some? || run.screenshotError.Some?
    ensures o.Returned? ==> o.result == SuccessRecord(folder, p)
  {
    if run.launchError.Some? then Raised(run.launchError.value)
    else if run.screenshotError.Some? then Raised(run.screenshotError.value)
    else Returned(SuccessRecord(folder, p))
  }

  /** A failed page load inside Playwright is logged and the page is
      captured anyway: it never changes the outcome. */
  lemma NavigationFailureSwallowed(folder: string, p: Profile, run: PlaywrightRun)
    ensures PlaywrightCapture(folder, p, run) == PlaywrightCapture(folder, p, run.(navigationError := None))
    ensures run.launchError.None? && run.screenshotError.None? ==> PlaywrightCapture(folder, p, run).Returned?
  {
  }

  function SeleniumCapture(folder: string, p: Profile, run: SeleniumRun): (o: Outcome)
    ensures o.Raised? <==> run.error.Some?
    ensures o.Returned? ==> o.result == SuccessRecord(folder, p)
  {
    if run.error.Some? then Raised(run.error.value) else Returned(SuccessRecord(folder, p))
  }

  /** The placeholder catches its own errors, so it always returns. */
  function PlaceholderCapture(folder: string, p: Profile, run: PlaceholderRun): (r: CaptureResult)
    ensures r.CaptureFailed? <==> run.saveError.Some?
    ensures r.Captured? ==> r == SuccessRecord(folder, p)
  {
    if run.saveError.Some? then CaptureFailed(run.saveError.value) else SuccessRecord(folder, p)
  }

  function Invoke(b: Backend, folder: string, p: Profile, env: Environment): Outcome {
    match b
    case Playwright => PlaywrightCapture(folder, p, env.playwright)
    case Selenium => SeleniumCapture(folder, p, env.selenium)
    case Placeholder => Returned(PlaceholderCapture(folder, p, env.placeholder))
  }

  /** Whichever backend produces a successful record, it is the same record:
      same file name, path, device name and size. */
  lemma BackendsAgree(b1: Backend, b2: Backend, folder: string, p: Profile, env1: Environment, env2: Environment)
    requires Invoke(b1, folder, p, env1).Returned? && Invoke(b1, folder, p, env1).result.Captured?
    requires Invoke(b2, folder, p, env2).Returned? && Invoke(b2, folder, p, env2).result.Captured?
    ensures Invoke(b1, folder, p, env1).result == Invoke(b2, folder, p, env2).result
  {
  }

  /** The record handed back and the backends that were called, in order. */
  datatype Attempt = Attempt(result: CaptureResult, tried: seq<Backend>)

  /** The chain: a backend is called only when every earlier one raised, and
      the first one that returns decides the result. */
  function Fallback(folder: string, p: Profile, env: Environment): (a: Attempt)
    ensures 1 <= |a.tried| <= |ChainOrder| && a.tried == ChainOrder[..|a.tried|]
    ensures forall k :: 0 <= k < |a.tried| - 1 ==> Invoke(a.tried[k], folder, p, env).Raised?
    ensures Invoke(a.tried[|a.tried| - 1], folder, p, env) == Returned(a.result)
  {
    match PlaywrightCapture(folder, p, env.playwright)
    case Returned(r) => Attempt(r, [Playwright])
    case Raised(_) =>
      match SeleniumCapture(folder, p, env.selenium)
      case Returned(r) => Attempt(r, [Playwright, Selenium])
      case Raised(_) => Attempt(PlaceholderCapture(folder, p, env.placeholder), ChainOrder)
  }

  /** Selenium runs exactly when Playwright raised; the placeholder exactly
      when both browsers raised; a Playwright record is returned unchanged. */
  lemma FallbackOrder(folder: string, p: Profile, env: Environment)
    ensures var a := Fallback(folder, p, env);
            && (Selenium in a.tried <==> PlaywrightCapture(folder, p, env.playwright).Raised?)
            && (Placeholder in a.tried <==>
                  PlaywrightCapture(folder, p, env.playwright).Raised? && SeleniumCapture(folder, p, env.selenium).Raised?)
            && (PlaywrightCapture(folder, p, env.playwright).Returned? ==>
                  a.result == PlaywrightCapture(folder, p, env.playwright).result)
  {
    var a := Fallback(folder, p, env);
    assert a.tried[0] == Playwright;
    if |a.tried| >= 2 {
      assert a.tried[1] == Selenium;
    }
  }

  /** `ScreenshotService.capture_screenshot(url, device_type, output_folder)`. */
  function CaptureScreenshot(deviceType: string, folder: string, env: Environment): (a: Attempt)
    ensures ParseClass(deviceType).None? ==>
              a == Attempt(CaptureFailed("Unsupported device type: " + deviceType), [])
    ensures ParseClass(deviceType).Some? && env.folderError.Some? ==>
              a == Attempt(CaptureFailed(env.folderError.value), [])
    ensures a.tried != [] <==> ParseClass(deviceType).Some? && env.folderError.None?
    ensures ParseClass(deviceType).Some? && env.folderError.None? ==>
              a == Fallback(folder, Representative(ParseClass(deviceType).value), env)
    ensures a.result.Captured? ==>
              ParseClass(deviceType).Some? &&
              a.result == SuccessRecord(folder, Representative(ParseClass(deviceType).value))
  {
    match ParseClass(deviceType)
    case None => Attempt(CaptureFailed("Unsupported device type: " + deviceType), [])
    case Some(c) =>
      if env.folderError.Some? then Attempt(CaptureFailed(env.folderError.value), [])
      else Fallback(folder, Representative(c), env)
  }

  lemma MobileDimensionsText()
    ensures Decimal(390) == "390" && Decimal(844) == "844"
  {
    assert Decimal(39) == "39";
    assert Decimal(84) == "84";
  }

  lemma MobileSafeName()
    ensures SafeDeviceName("iPhone 12") == "iphone_12"
  {
    var safe := SafeDeviceName("iPhone 12");
    assert safe[0] == 'i';
  }

  /** The mobile representative's file name. */
  lemma MobileFilename()
    ensures CaptureFilename("iPhone 12", 390, 844) == "iphone_12_390x844.png"
  {
    MobileDimensionsText();
    MobileSafeName();
  }

  /** A successful mobile capture is the iPhone 12 at 390x844. */
  lemma MobileCapture(folder: string, env: Environment)
    requires CaptureScreenshot("mobile", folder, env).result.Captured?
    ensures var r := CaptureScreenshot("mobile", folder, env).result;
            r.deviceName == "iPhone 12" && r.width == 390 && r.height == 844
            && r.filename == "iphone_12_390x844.png"
  {
    MobileFilename();
  }

  /** One line of text drawn on the placeholder, with its top-left corner. */
  datatype TextPlacement = TextPlacement(text: string, x: int, y: int)

  /** The placeholder's drawing: canvas size, text lines, and border box. */
  datatype PlaceholderImage = PlaceholderImage(width: nat, height: nat, lines: seq<TextPlacement>, border: Rect)

  function PlaceholderText(url: string, p: Profile): (lines: seq<string>)
    ensures |lines| == 9
  {
    [ "Screenshot Placeholder",
      "",
      "Device: " + p.name,
      "Resolution: " + Decimal(p.width) + "x" + Decimal(p.height),
      "URL: " + url,
      "",
      "This is a placeholder image.",
      "In production, this would be a",
      "real screenshot of the website." ]
  }

  /** `_create_placeholder_screenshot`'s drawing. `textWidth` stands for the
      font's measured width of a line. Each line is centred (the left and
      right margins differ by at most one pixel, the extra one on the right),
      lines are 30 px apart starting at y = 50, and the border sits 10 px
      inside the canvas. */
  method DrawPlaceholder(url: string, p: Profile, textWidth: string -> nat) returns (img: PlaceholderImage)
    ensures img.width == p.width && img.height == p.height
    ensures |img.lines| == |PlaceholderText(url, p)|
    ensures forall k :: 0 <= k < |img.lines| ==>
              img.lines[k].text == PlaceholderText(url, p)[k] && img.lines[k].y == 50 + 30 * k
    ensures forall k :: 0 <= k < |img.lines| ==>
              var right := p.width - textWidth(img.lines[k].text) - img.lines[k].x;
              0 <= right - img.lines[k].x <= 1
    ensures img.border == Rect(10, 10, p.width - 10, p.height - 10)
  {
    var lines := PlaceholderText(url, p);
    var placed: seq<TextPlacement> := [];
    var y := 50;
    var k := 0;
    while k < |lines|
      invariant 0 <= k <= |lines| && |placed| == k
      invariant y == 50 + 30 * k
      invariant forall j :: 0 <= j < k ==> placed[j].text == lines[j] && placed[j].y == 50 + 30 * j
      invariant forall j :: 0 <= j < k ==>
                  var right := p.width - textWidth(placed[j].text) - placed[j].x;
                  0 <= right - placed[j].x <= 1
    {
      // Python's `//` floors; for the divisor 2 Dafny's `/` does the same.
      var x := (p.width - textWidth(lines[k])) / 2;
      placed := placed + [TextPlacement(lines[k], x, y)];
      y := y + 30;
      k := k + 1;
    }
    img := PlaceholderImage(p.width, p.height, placed, Rect(10, 10, p.width - 10, p.height - 10));
  }
}

=== FILE: catalog.dfy ===
/** The device catalog: three device classes, each with an ordered table of
    viewport profiles. A capture run uses the first profile of a class. The
    same table is declared in screenshots/services.py and in
    screenshot_service.py; it is defined once here. */
module Catalog {
  import opened Wrappers

  datatype DeviceClass = Mobile | Tablet | Desktop

  /** One row of a class's table: device name, viewport size, user agent. */
  datatype Profile = Profile(name: string, width: nat, height: nat, userAgent: string)

  /** The dictionary key naming a class. */
  function ClassName(c: DeviceClass): string {
    match c
    case Mobile => "mobile"
    case Tablet => "tablet"
    case Desktop => "desktop"
  }

  /** The class keys in the table's insertion order, which is also the order
      of the `DEVICE_TYPES` choices and of the coordinators' default list. */
  const Classes: seq<DeviceClass> := [Mobile, Tablet, Desktop]

  /** `device_type in device_configs`: the class a string names, if any. */
  function ParseClass(s: string): (r: Option<DeviceClass>)
    ensures r.Some? <==> (s == "mobile" || s == "tablet" || s == "desktop")
    ensures r.Some? ==> ClassName(r.value) == s
    ensures forall c :: s == ClassName(c) ==> r == Some(c)
  {
    if s == "mobile" then Some(Mobile)
    else if s == "tablet" then Some(Tablet)
    else if s == "desktop" then Some(Desktop)
    else None
  }

  /** The class names in table order are exactly the three known strings. */
  lemma ClassNamesInOrder()
    ensures |Classes| == 3
    ensures forall i :: 0 <= i < |Classes| ==> ParseClass(ClassName(Classes[i])) == Some(Classes[i])
    ensures ClassName(Classes[0]) == "mobile" && ClassName(Classes[1]) == "tablet"
    ensures ClassName(Classes[2]) == "desktop"
  {
  }

  /** The user-agent strings of the table. */
  const IPhoneAgent: string := "Mozilla/5.0 (iPhone; CPU iPhone OS 14_0 like Mac OS X) AppleWebKit/605.1.15"
  const GalaxyS21Agent: string := "Mozilla/5.0 (Linux; Android 11; SM-G991B) AppleWebKit/537.36"
  const Pixel5Agent: string := "Mozilla/5.0 (Linux; Android 11; Pixel 5) AppleWebKit/537.36"
  const IPadAgent: string := "Mozilla/5.0 (iPad; CPU OS 14_0 like Mac OS X) AppleWebKit/605.1.15"
  const GalaxyTabAgent: string := "Mozilla/5.0 (Linux; Android 11; SM-T870) AppleWebKit/537.36"
  const WindowsAgent: string := "Mozilla/5.0 (Windows NT 10.0; Win64; x64) AppleWebKit/537.36"
  const MacAgent: string := "Mozilla/5.0 (Macintosh; Intel Mac OS X 10_15_7) AppleWebKit/537.36"

  function Profiles(c: DeviceClass): (ps: seq<Profile>)
    ensures |ps| == 3
    ensures forall i :: 0 <= i < |ps| ==> ps[i].width > 0 && ps[i].height > 0
  {
    match c
    case Mobile => [
      Profile("iPhone 12", 390, 844, IPhoneAgent),
      Profile("Samsung Galaxy S21", 360, 800, GalaxyS21Agent),
      Profile("Google Pixel 5", 393, 851, Pixel5Agent)
    ]
    case Tablet => [
      Profile("iPad Pro", 1024, 1366, IPadAgent),
      Profile("Samsung Galaxy Tab", 800, 1280, GalaxyTabAgent),
      Profile("Surface Pro", 912, 1368, WindowsAgent)
    ]
    case Desktop => [
      Profile("Desktop 1920x1080", 1920, 1080, WindowsAgent),
      Profile("Desktop 1366x768", 1366, 768, WindowsAgent),
      Profile("MacBook Pro", 1440, 900, MacAgent)
    ]
  }

  /** `list(device_configs[c].keys())[0]` and its config. */
  function Representative(c: DeviceClass): (p: Profile)
    ensures p == Profiles(c)[0]
    ensures p.width > 0 && p.height > 0
  {
    Profiles(c)[0]
  }

  /** The representative of each class, as the table lists it. */
  lemma RepresentativeProfiles()
    ensures Representative(Mobile).name == "iPhone 12"
    ensures Representative(Mobile).width == 390 && Representative(Mobile).height == 844
    ensures Representative(Tablet).name == "iPad Pro"
    ensures Representative(Tablet).width == 1024 && Representative(Tablet).height == 1366
    ensures Representative(Desktop).name == "Desktop 1920x1080"
    ensures Representative(Desktop).width == 1920 && Representative(Desktop).height == 1080
  {
  }
}

=== FILE: framed_mockup.dfy ===
/** `MockupService` of mockup_service.py, the older compositor used by the
    Flask routes: the canvas grows with the screenshot (a frame on every
    side, a stand below a desktop), the screenshot is pasted unscaled inside
    the frame, and the shadow keeps the canvas size. */
module FramedMockup {
  import opened Wrappers
  import opened Text
  import opened Catalog
  import opened Naming
  import opened Geometry
  import Mockup

  /** The sizes of a row of `mockup_configs`; colours are left out. */
  datatype FrameConfig = FrameConfig(
    frameWidth: nat, cornerRadius: nat, buttonRadius: nat, cameraRadius: nat, standHeight: nat)

  function ConfigOf(c: DeviceClass): FrameConfig {
    match c
    case Mobile => FrameConfig(30, 25, 3, 8, 0)
    case Tablet => FrameConfig(40, 15, 2, 0, 0)
    case Desktop => FrameConfig(20, 8, 0, 0, 100)
  }

  /** The canvas for a screenshot of size sw x sh. */
  function CanvasOf(c: DeviceClass, sw: nat, sh: nat): (r: Rect)
    ensures r.left == 0 && r.top == 0
    ensures r.right == sw + 2 * ConfigOf(c).frameWidth
    ensures r.bottom == sh + 2 * ConfigOf(c).frameWidth + (if c == Desktop then ConfigOf(c).standHeight else 0)
  {
    var f := ConfigOf(c).frameWidth;
    Canvas(sw + 2 * f, sh + 2 * f + (if c == Desktop then ConfigOf(c).standHeight else 0))
  }

  /** Where the screenshot lands: at (frame, frame), unscaled. */
  function ScreenOf(c: DeviceClass, sw: nat, sh: nat): Rect {
    Placed(ConfigOf(c).frameWidth, ConfigOf(c).frameWidth, sw, sh)
  }

  /** The six boxes `_draw_rounded_rectangle` fills: two crossing bars and
      the bounding boxes of the four corner pie slices. */
  function RoundedRectangle(x1: int, y1: int, x2: int, y2: int, r: nat): seq<Rect> {
    [ Rect(x1 + r, y1, x2 - r, y2),
      Rect(x1, y1 + r, x2, y2 - r),
      Rect(x1, y1, x1 + 2 * r, y1 + 2 * r),
      Rect(x2 - 2 * r, y1, x2, y1 + 2 * r),
      Rect(x1, y2 - 2 * r, x1 + 2 * r, y2),
      Rect(x2 - 2 * r, y2 - 2 * r, x2, y2) ]
  }

  /** The pieces of a rounded rectangle are proper boxes exactly when the
      corners fit (twice the radius within each side), and then they all lie
      inside the rectangle's outline. */
  lemma {:induction false} RoundedRectangleFits(x1: int, y1: int, x2: int, y2: int, r: nat)
    ensures (forall p :: p in RoundedRectangle(x1, y1, x2, y2, r) ==> WellFormed(p))
            <==> 2 * r <= x2 - x1 && 2 * r <= y2 - y1
    ensures 2 * r <= x2 - x1 && 2 * r <= y2 - y1 ==>
              forall p :: p in RoundedRectangle(x1, y1, x2, y2, r) ==> Within(p, Rect(x1, y1, x2, y2))
  {
    var pieces := RoundedRectangle(x1, y1, x2, y2, r);
    if !(2 * r <= x2 - x1 && 2 * r <= y2 - y1) {
      assert !WellFormed(pieces[0]) || !WellFormed(pieces[1]);
    }
  }

  /** A drawn frame: the pieces of its outline and its details (buttons,
      camera, stand), each as a bounding box. */
  datatype Frame = Frame(outline: Rect, body: seq<Rect>, details: seq<Rect>)

  /** `_draw_mobile_frame`, `_draw_tablet_frame`, `_draw_desktop_frame` on a
      w x h canvas. */
  function FrameOf(c: DeviceClass, w: int, h: int): Frame {
    var cfg := ConfigOf(c);
    var f := cfg.frameWidth;
    match c
    case Mobile =>
      var buttonY := h - f + 5;
      var cameraY := f / 2;
      Frame(Rect(0, 0, w, h - cfg.standHeight), RoundedRectangle(0, 0, w, h - cfg.standHeight, cfg.cornerRadius), [
        Rect(w / 2 - cfg.buttonRadius, buttonY - cfg.buttonRadius, w / 2 + cfg.buttonRadius, buttonY + cfg.buttonRadius),
        Rect(w / 2 - cfg.cameraRadius, cameraY - cfg.cameraRadius, w / 2 + cfg.cameraRadius, cameraY + cfg.cameraRadius)
      ])
    case Tablet =>
      var buttonY := h - f / 2;
      Frame(Rect(0, 0, w, h), RoundedRectangle(0, 0, w, h, cfg.cornerRadius), [
        Rect(w / 2 - 10, buttonY - 10, w / 2 + 10, buttonY + 10)
      ])
    case Desktop =>
      var monitor := h - cfg.standHeight;
      var poleX := (w - 10) / 2;
      var baseWidth := w / 3;
      var baseX := (w - baseWidth) / 2;
      Frame(Rect(0, 0, w, monitor), RoundedRectangle(0, 0, w, monitor, cfg.cornerRadius), [
        Rect(poleX, monitor - 10, poleX + 10, monitor - 10 + cfg.standHeight - 30),   // pole
        Rect(baseX, h - 30, baseX + baseWidth, h)                                     // base
      ])
  }

  /** For every screenshot size: the frame's pieces and details are proper
      boxes on the canvas, the screenshot lies inside the frame's outline,
      and no detail overlaps the screenshot (each lies wholly above or below
      it), so the paste never hides a button and no button covers the page. */
  lemma {:induction false} FrameLayout(c: DeviceClass, sw: nat, sh: nat)
    ensures var canvas := CanvasOf(c, sw, sh);
            var frame := FrameOf(c, canvas.right, canvas.bottom);
            && Within(ScreenOf(c, sw, sh), frame.outline)
            && Within(frame.outline, canvas)
            && (forall p :: p in frame.body ==> WellFormed(p) && Within(p, canvas))
            && (forall d :: d in frame.details ==> WellFormed(d) && Within(d, canvas))
            && (forall d :: d in frame.details ==> Below(d, ScreenOf(c, sw, sh)) || Below(ScreenOf(c, sw, sh), d))
  {
    var canvas := CanvasOf(c, sw, sh);
    var frame := FrameOf(c, canvas.right, canvas.bottom);
    var o := frame.outline;
    RoundedRectangleFits(o.left, o.top, o.right, o.bottom, ConfigOf(c).cornerRadius);
  }

  /** `_add_shadow`'s outcome on a w x h image: its size, and the shadow box
      drawn before blurring. Pillow refuses a box whose corners are swapped,
      which the `except` turns into returning the image without a shadow. */
  datatype Shadowed = Shadowed(width: nat, height: nat, shadow: Option<Rect>)

  function AddShadow(w: nat, h: nat): (r: Shadowed)
    ensures r.width == w && r.height == h
    ensures r.shadow.Some? <==> 20 <= w && 20 <= h
    ensures r.shadow.Some? ==>
              var b := r.shadow.value;
              b.left == 10 && b.top == 10 && w - b.right == 10 && h - b.bottom == 10
              && Within(b, Canvas(w, h))
  {
    var box := Rect(10, 10, w - 10, h - 10);
    if WellFormed(box) then Shadowed(w, h, Some(box)) else Shadowed(w, h, None)
  }

  /** Every framed canvas is large enough for its shadow. */
  lemma ShadowAlwaysDrawn(c: DeviceClass, sw: nat, sh: nat)
    ensures AddShadow(CanvasOf(c, sw, sh).right, CanvasOf(c, sw, sh).bottom).shadow.Some?
  {
  }

  /** What one call meets outside the model: whether the screenshot exists,
      decoding it (its size), and saving the PNG. */
  datatype FramedIO = FramedIO(fileExists: bool, decoded: Result<(nat, nat)>, saveError: Option<string>)

  /** `create_mockup(screenshot_path, device_type, output_folder)`. The
      output size depends on the screenshot: its size plus the frame on each
      side, plus the stand for a desktop. */
  function CreateMockup(screenshotPath: string, deviceType: string, folder: string, io: FramedIO): (r: Mockup.MockupResult)
    ensures !io.fileExists ==> r == Mockup.MockupFailed("Screenshot file not found")
    ensures io.fileExists && ParseClass(deviceType).None? ==>
              r == Mockup.MockupFailed("Unsupported device type for mockup: " + deviceType)
    ensures r.Mocked? <==>
              io.fileExists && ParseClass(deviceType).Some? && io.decoded.Success? && io.saveError.None?
    ensures r.Mocked? ==>
              && r.filename == "mockup_" + Basename(screenshotPath)
              && r.path == Join(folder, r.filename)
              && var cfg := ConfigOf(ParseClass(deviceType).value);
                 var stand := if deviceType == "desktop" then cfg.standHeight else 0;
                 r.width == io.decoded.value.0 + 2 * cfg.frameWidth
                 && r.height == io.decoded.value.1 + 2 * cfg.frameWidth + stand
  {
    if !io.fileExists then Mockup.MockupFailed("Screenshot file not found")
    else match ParseClass(deviceType)
      case None => Mockup.MockupFailed("Unsupported device type for mockup: " + deviceType)
      case Some(c) =>
        match io.decoded
        case Failure(e) => Mockup.MockupFailed(e)
        case Success(size) =>
          var canvas := CanvasOf(c, size.0, size.1);
          var out := AddShadow(canvas.right, canvas.bottom);
          var filename := MockupFilename(screenshotPath);
          if io.saveError.Some? then Mockup.MockupFailed(io.saveError.value)
          else Mockup.Mocked(Join(folder, filename), filename, out.width, out.height)
  }
}

=== FILE: geometry.dfy ===
/** Axis-aligned boxes in canvas coordinates. A `Rect` is Pillow's
    `[x0, y0, x1, y1]`: the corners of a drawn shape or the area a pasted
    image covers; a canvas of size w x h is the box from (0, 0) to (w, h). */
module Geometry {

  datatype Rect = Rect(left: int, top: int, right: int, bottom: int)

  predicate WellFormed(r: Rect) {
    r.left <= r.right && r.top <= r.bottom
  }

  function Canvas(width: int, height: int): Rect {
    Rect(0, 0, width, height)
  }

  /** `inner` lies inside `outer` (edges may touch). */
  predicate Within(inner: Rect, outer: Rect) {
    && outer.left <= inner.left && inner.right <= outer.right
    && outer.top <= inner.top && inner.bottom <= outer.bottom
  }

  /** `lower` starts strictly below the bottom edge of `upper`. */
  predicate Below(lower: Rect, upper: Rect) {
    upper.bottom < lower.top
  }

  /** The box an image of the given size covers when pasted at (x, y). */
  function Placed(x: int, y: int, width: nat, height: nat): (r: Rect)
    ensures WellFormed(r)
    ensures r.right - r.left == width && r.bottom - r.top == height
  {
    Rect(x, y, x + width, y + height)
  }
}

=== FILE: json.dfy ===
/** Request bodies as Python sees them once decoded: JSON values with
    Python's truthiness, `in`, subscripting, `dict.get` and iteration. A
    decoded object is its key/value pairs in document order; as in the
    decoder's dict, a repeated key keeps its first position and its last
    value. Numbers are integers. */
module Json {
  import opened Wrappers
  import opened Text

  datatype Json =
    | JNull
    | JBool(b: bool)
    | JNum(n: int)
    | JStr(s: string)
    | JArr(items: seq<Json>)
    | JObj(fields: seq<(string, Json)>)

  /** `type(value).__name__` of the decoded value. */
  function TypeName(j: Json): string {
    match j
    case JNull => "NoneType"
    case JBool(_) => "bool"
    case JNum(_) => "int"
    case JStr(_) => "str"
    case JArr(_) => "list"
    case JObj(_) => "dict"
  }

  /** `bool(value)`. */
  predicate Truthy(j: Json) {
    match j
    case JNull => false
    case JBool(b) => b
    case JNum(n) => n != 0
    case JStr(s) => s != ""
    case JArr(items) => items != []
    case JObj(fields) => fields != []
  }

  /** The value a key maps to: that of its last pair. */
  function Lookup(fields: seq<(string, Json)>, key: string): (r: Option<Json>)
    ensures r.None? <==> forall i :: 0 <= i < |fields| ==> fields[i].0 != key
    ensures r.Some? ==>
              exists i :: 0 <= i < |fields| && fields[i] == (key, r.value)
                && forall k :: i < k < |fields| ==> fields[k].0 != key
  {
    if fields == [] then None
    else if fields[|fields| - 1].0 == key then Some(fields[|fields| - 1].1)
    else Lookup(fields[..|fields| - 1], key)
  }

  /** The position of a key's first pair, or the number of pairs when no
      pair has it. */
  function FirstIndex(fields: seq<(string, Json)>, key: string): (r: nat)
    ensures r <= |fields|
    ensures r < |fields| ==> fields[r].0 == key
    ensures forall i :: 0 <= i < r ==> fields[i].0 != key
  {
    if fields == [] then 0
    else if fields[0].0 == key then 0
    else 1 + FirstIndex(fields[1..], key)
  }

  /** A key that some pair of a prefix holds is first met inside that prefix. */
  lemma FirstIndexOfPrefix(fields: seq<(string, Json)>, n: nat, key: string)
    requires n <= |fields|
    requires FirstIndex(fields[..n], key) < n
    ensures FirstIndex(fields, key) == FirstIndex(fields[..n], key)
  {
    var p := FirstIndex(fields[..n], key);
    assert fields[..n][p] == fields[p];
  }

  /** The dict's keys in iteration order: each key once, where it first
      appeared. */
  function Keys(fields: seq<(string, Json)>): (ks: seq<string>)
    ensures forall k :: k in ks <==> exists i :: 0 <= i < |fields| && fields[i].0 == k
    ensures forall a, b :: 0 <= a < b < |ks| ==> ks[a] != ks[b]
  {
    if fields == [] then []
    else
      var last := fields[|fields| - 1];
      var ks := Keys(fields[..|fields| - 1]);
      assert forall i :: 0 <= i < |fields| - 1 ==> fields[..|fields| - 1][i] == fields[i];
      if last.0 in ks then ks else ks + [last.0]
  }

  /** Iteration meets the keys in the order of their first pairs. */
  lemma {:induction false} KeysInFirstOrder(fields: seq<(string, Json)>)
    ensures forall a :: 0 <= a < |Keys(fields)| ==> FirstIndex(fields, Keys(fields)[a]) < |fields|
    ensures forall a, b :: 0 <= a < b < |Keys(fields)| ==>
              FirstIndex(fields, Keys(fields)[a]) < FirstIndex(fields, Keys(fields)[b])
  {
    if fields != [] {
      var n := |fields| - 1;
      var last := fields[n];
      var ks := Keys(fields[..n]);
      KeysInFirstOrder(fields[..n]);
      forall a | 0 <= a < |ks| ensures FirstIndex(fields, ks[a]) == FirstIndex(fields[..n], ks[a]) {
        FirstIndexOfPrefix(fields, n, ks[a]);
      }
      if last.0 !in ks {
        assert Keys(fields) == ks + [last.0];
      }
    }
  }

  /** A key is iterated over exactly when a lookup finds it. */
  lemma KeysAgreeWithLookup(fields: seq<(string, Json)>, key: string)
    ensures key in Keys(fields) <==> Lookup(fields, key).Some?
  {
  }

  /** `key in value`: dict membership, list membership, substring; any
      other type raises. */
  function In(j: Json, key: string): (r: Result<bool>)
    ensures r.Failure? <==> j.JNull? || j.JBool? || j.JNum?
    ensures j.JObj? ==> r == Success(Lookup(j.fields, key).Some?)
    ensures j.JArr? ==> r == Success(JStr(key) in j.items)
    ensures j.JStr? ==> r == Success(Contains(j.s, key))
  {
    match j
    case JObj(fields) =>
      KeysAgreeWithLookup(fields, key);
      Success(key in Keys(fields))
    case JArr(items) => Success(JStr(key) in items)
    case JStr(s) => Success(Contains(s, key))
    case _ => Failure("argument of type '" + TypeName(j) + "' is not iterable")
  }

  /** `value[key]` with a string key: only a dict holding the key answers. */
  function Index(j: Json, key: string): (r: Result<Json>)
    ensures r.Success? <==> j.JObj? && Lookup(j.fields, key).Some?
    ensures r.Success? ==> Some(r.value) == Lookup(j.fields, key)
  {
    match j
    case JObj(fields) =>
      (match Lookup(fields, key)
       case Some(v) => Success(v)
       case None => Failure("'" + key + "'"))
    case JArr(_) => Failure("list indices must be integers or slices, not str")
    case JStr(_) => Failure("string indices must be integers, not 'str'")
    case _ => Failure("'" + TypeName(j) + "' object is not subscriptable")
  }

  /** `value.get(key)`: only a dict has `get`. */
  function DictGet(j: Json, key: string): (r: Result<Option<Json>>)
    ensures r.Success? <==> j.JObj?
    ensures r.Success? ==> r.value == Lookup(j.fields, key)
    ensures r.Failure? ==> r.error == "'" + TypeName(j) + "' object has no attribute 'get'"
  {
    match j
    case JObj(fields) => Success(Lookup(fields, key))
    case _ => Failure("'" + TypeName(j) + "' object has no attribute 'get'")
  }

  /** `for item in value`: a list's items, a dict's keys, a string's
      characters; any other type raises. */
  function Iterate(j: Json): (r: Result<seq<Json>>)
    ensures r.Failure? <==> j.JNull? || j.JBool? || j.JNum?
    ensures j.JArr? ==> r == Success(j.items)
    ensures j.JObj? ==>
              && r.Success? && |r.value| == |Keys(j.fields)|
              && forall i :: 0 <= i < |r.value| ==> r.value[i] == JStr(Keys(j.fields)[i])
    ensures j.JStr? ==>
              && r.Success? && |r.value| == |j.s|
              && forall i :: 0 <= i < |r.value| ==> r.value[i] == JStr([j.s[i]])
  {
    match j
    case JArr(items) => Success(items)
    case JObj(fields) =>
      var ks := Keys(fields);
      Success(seq(|ks|, i requires 0 <= i < |ks| => JStr(ks[i])))
    case JStr(s) => Success(seq(|s|, i requires 0 <= i < |s| => JStr([s[i]])))
    case _ => Failure("'" + TypeName(j) + "' object is not iterable")
  }
}

=== FILE: legacy_capture.dfy ===
/** `ScreenshotService` of screenshot_service.py, the older capture service
    used by the Flask routes: the same device table and the same backends
    as screenshots/services.py, but a two-stage chain with no Selenium
    stage and no output-folder creation. */
module LegacyCapture {
  import opened Wrappers
  import opened Catalog
  import opened Capture

  /** What one legacy capture call meets: Playwright, then the placeholder. */
  datatype LegacyEnvironment = LegacyEnvironment(playwright: PlaywrightRun, placeholder: PlaceholderRun)

  /** The two-stage chain: the placeholder is called exactly when
      Playwright raised, and no other backend is ever called. */
  function LegacyFallback(folder: string, p: Profile, env: LegacyEnvironment): (a: Attempt)
    ensures a.tried == [Playwright] || a.tried == [Playwright, Placeholder]
    ensures Selenium !in a.tried
    ensures a.tried == [Playwright] <==> PlaywrightCapture(folder, p, env.playwright).Returned?
    ensures a.tried == [Playwright] ==> a.result == PlaywrightCapture(folder, p, env.playwright).result
    ensures a.tried == [Playwright, Placeholder] ==> a.result == PlaceholderCapture(folder, p, env.placeholder)
  {
    match PlaywrightCapture(folder, p, env.playwright)
    case Returned(r) => Attempt(r, [Playwright])
    case Raised(_) => Attempt(PlaceholderCapture(folder, p, env.placeholder), [Playwright, Placeholder])
  }

  /** `capture_screenshot(url, device_type, output_folder)`: any exception
      inside the Playwright block goes straight to the placeholder. Every step
      that can raise is caught inside, so the call never raises. */
  function CaptureScreenshot(deviceType: string, folder: string, env: LegacyEnvironment): (a: Attempt)
    ensures ParseClass(deviceType).None? ==>
              a == Attempt(CaptureFailed("Unsupported device type: " + deviceType), [])
    ensures ParseClass(deviceType).Some? ==>
              a == LegacyFallback(folder, Representative(ParseClass(deviceType).value), env)
    ensures a.result.Captured? ==>
              ParseClass(deviceType).Some? &&
              a.result == SuccessRecord(folder, Representative(ParseClass(deviceType).value))
  {
    match ParseClass(deviceType)
    case None => Attempt(CaptureFailed("Unsupported device type: " + deviceType), [])
    case Some(c) => LegacyFallback(folder, Representative(c), env)
  }

  /** The loop body of `capture_all_devices` for one class. */
  function CaptureClass(c: DeviceClass, folder: string, env: DeviceClass -> LegacyEnvironment): TaggedResult {
    TaggedResult(ClassName(c), CaptureScreenshot(ClassName(c), folder, env(c)).result)
  }

  /** `capture_all_devices`: one capture per class of the table, in table
      order, each tagged with its class key. `env(c)` is what the capture of
      class `c` meets. */
  method CaptureAllDevices(folder: string, env: DeviceClass -> LegacyEnvironment) returns (results: seq<TaggedResult>)
    ensures |results| == |Classes|
    ensures forall i :: 0 <= i < |results| ==> results[i] == CaptureClass(Classes[i], folder, env)
  {
    results := [];
    var i := 0;
    while i < |Classes|
      invariant 0 <= i <= |Classes| && |results| == i
      invariant forall j :: 0 <= j < i ==> results[j] == CaptureClass(Classes[j], folder, env)
    {
      results := results + [CaptureClass(Classes[i], folder, env)];
      i := i + 1;
    }
  }

  /** Each entry of `capture_all_devices` carries its class key and that
      class's capture result. */
  lemma CaptureAllDevicesTagged(c: DeviceClass, folder: string, env: DeviceClass -> LegacyEnvironment)
    ensures CaptureClass(c, folder, env).deviceType == ClassName(c)
    ensures CaptureClass(c, folder, env).result.Captured? ==>
              CaptureClass(c, folder, env).result == SuccessRecord(folder, Representative(c))
  {
  }
}

=== FILE: mockup.dfy ===
/** `MockupService` of screenshots/services.py: a device of fixed size per
    class is drawn, the screenshot is scaled into the device's screen area
    and pasted there, and a stepped drop shadow grows the canvas by 20 px in
    each direction. Only sizes and boxes are modelled, not pixels; the file
    system and Pillow's decoder are oracles in `MockupIO`. */
module Mockup {
  import opened Wrappers
  import opened Text
  import opened Catalog
  import opened Naming
  import opened Geometry

  /** A row of `mockup_configs`; `standHeight` is 0 where the row has none. */
  datatype MockupConfig = MockupConfig(
    deviceWidth: nat, deviceHeight: nat,
    screenWidth: nat, screenHeight: nat,
    frameWidth: nat, standHeight: nat, cornerRadius: nat)

  function ConfigOf(c: DeviceClass): MockupConfig {
    match c
    case Mobile => MockupConfig(200, 400, 160, 300, 20, 0, 15)
    case Tablet => MockupConfig(300, 400, 260, 320, 20, 0, 10)
    case Desktop => MockupConfig(400, 300, 360, 220, 20, 80, 5)
  }

  /** The canvas: the device, with the stand's height added below a desktop. */
  function CanvasOf(c: DeviceClass): Rect {
    var cfg := ConfigOf(c);
    Canvas(cfg.deviceWidth, cfg.deviceHeight + (if c == Desktop then cfg.standHeight else 0))
  }

  /** The device body: the whole canvas except a desktop's stand. */
  function BodyOf(c: DeviceClass): Rect {
    Canvas(ConfigOf(c).deviceWidth, ConfigOf(c).deviceHeight)
  }

  /** The top bezel: the vertical screen offset that replaces the centred one. */
  function ScreenTop(c: DeviceClass): nat {
    match c
    case Mobile => 60
    case Tablet => 50
    case Desktop => 40
  }

  /** Where the fitted screenshot is pasted: horizontally centred, below the bezel. */
  function ScreenRect(c: DeviceClass): Rect {
    var cfg := ConfigOf(c);
    Placed((cfg.deviceWidth - cfg.screenWidth) / 2, ScreenTop(c), cfg.screenWidth, cfg.screenHeight)
  }

  /** The canvas is the device body, plus the stand for a desktop only. */
  lemma CanvasSizes()
    ensures CanvasOf(Mobile) == Canvas(200, 400) && CanvasOf(Tablet) == Canvas(300, 400)
    ensures CanvasOf(Desktop) == Canvas(400, 380)
    ensures forall c :: c != Desktop ==> CanvasOf(c) == BodyOf(c)
    ensures CanvasOf(Desktop).bottom == BodyOf(Desktop).bottom + ConfigOf(Desktop).standHeight
  {
  }

  /** The frame a class draws: the device body and its small details
      (speaker, home button, stand), each as its bounding box. */
  datatype FrameShapes = FrameShapes(body: Rect, details: seq<Rect>)

  function FrameOf(c: DeviceClass): FrameShapes {
    var cfg := ConfigOf(c);
    var w := cfg.deviceWidth;
    match c
    case Mobile =>
      var h := cfg.deviceHeight;
      var speakerX := (w - 60) / 2;
      FrameShapes(Canvas(w, h), [
        Rect(w / 2 - 10, h - 25, w / 2 + 10, h - 5),    // home button
        Rect(speakerX, 15, speakerX + 60, 25)           // speaker
      ])
    case Tablet =>
      var h := cfg.deviceHeight;
      FrameShapes(Canvas(w, h), [
        Rect(w / 2 - 20, h - 25, w / 2 + 20, h - 10)    // home button
      ])
    case Desktop =>
      var h := CanvasOf(c).bottom;
      var monitor := h - cfg.standHeight;
      var baseWidth := w / 3;
      var baseX := (w - baseWidth) / 2;
      var neckX := (w - 20) / 2;
      FrameShapes(Canvas(w, monitor), [
        Rect(baseX, monitor + 40, baseX + baseWidth, monitor + 60),   // stand base
        Rect(neckX, monitor - 10, neckX + 20, monitor + 50)           // stand neck
      ])
  }

  /** Every class's frame lies on its canvas, the body is the device body,
      the screen lies inside the body, and no detail overlaps the screen:
      each is wholly above or wholly below it. */
  lemma FrameLayout(c: DeviceClass)
    ensures FrameOf(c).body == BodyOf(c)
    ensures Within(BodyOf(c), CanvasOf(c))
    ensures forall d :: d in FrameOf(c).details ==> WellFormed(d) && Within(d, CanvasOf(c))
    ensures Within(ScreenRect(c), BodyOf(c))
    ensures forall d :: d in FrameOf(c).details ==> Below(d, ScreenRect(c)) || Below(ScreenRect(c), d)
  {
  }

  /** `floor(n * num / den)`, stated without division. */
  predicate IsFloorScaled(n: nat, num: nat, den: nat, r: nat) {
    r * den <= n * num < (r + 1) * den
  }

  /** The fitted screen image: a canvas of the target size and the box the
      screenshot covers on it; `stretched` marks the fallback resize. */
  datatype Fitted = Fitted(width: nat, height: nat, content: Rect, stretched: bool)

  /** `a / d` is the floor of the quotient. */
  lemma DivFloor(a: nat, d: nat)
    requires d > 0
    ensures (a / d) * d <= a < (a / d + 1) * d
  {
  }

  /** From `a * c <= b * c` with a positive `c`, `a <= b`. */
  lemma CancelFactor(a: int, b: int, c: int)
    requires c > 0 && a * c <= b * c
    ensures a <= b
  {
    assert (b - a) * c >= 0;
  }

  /** `n * num / den`, floored: within `limit` when the exact product is. */
  function FloorScale(n: nat, num: nat, den: nat, limit: nat): (r: nat)
    requires den > 0 && num * n <= limit * den
    ensures IsFloorScaled(n, num, den, r)
    ensures r <= limit
  {
    ScaleWithin(n, num, den, limit);
    n * num / den
  }

  lemma ScaleWithin(n: nat, num: nat, den: nat, limit: nat)
    requires den > 0 && num * n <= limit * den
    ensures 0 <= n * num / den <= limit
    ensures IsFloorScaled(n, num, den, n * num / den)
  {
    DivFloor(n * num, den);
    assert n * num == num * n;
    CancelFactor(n * num / den, limit, den);
  }

  /** The scaled size of a w x h screenshot: the smaller of the factors
      `tw/ow` and `th/oh` is applied to both sides and the result floored,
      so the side the factor came from meets the target exactly and the
      other never exceeds it. */
  function ScaledSize(ow: nat, oh: nat, tw: nat, th: nat): (s: (nat, nat))
    requires ow > 0 && oh > 0
    ensures s.0 <= tw && s.1 <= th
    ensures tw * oh <= th * ow ==> s.0 == tw && IsFloorScaled(oh, tw, ow, s.1)
    ensures tw * oh > th * ow ==> s.1 == th && IsFloorScaled(ow, th, oh, s.0)
  {
    if tw * oh <= th * ow then (tw, FloorScale(oh, tw, ow, th))
    else (FloorScale(ow, th, oh, tw), th)
  }

  /** `_fit_screenshot_to_device` in exact arithmetic. The scaled image is
      pasted at the top of a target-sized canvas, horizontally centred. A zero
      original side (division by zero) or a zero scaled side (rejected by the
      resize) falls back to stretching the screenshot to the target size;
      that fallback raises in turn when the target has a zero side, which is
      `None` here. */
  function Fit(ow: nat, oh: nat, tw: nat, th: nat): (f: Option<Fitted>)
    ensures f.None? <==> tw == 0 || th == 0
    ensures f.Some? ==> f.value.width == tw && f.value.height == th
    ensures f.Some? ==> WellFormed(f.value.content) && Within(f.value.content, Canvas(tw, th))
    ensures f.Some? ==>
              (f.value.stretched <==> ow == 0 || oh == 0 || ScaledSize(ow, oh, tw, th).0 == 0 || ScaledSize(ow, oh, tw, th).1 == 0)
    ensures f.Some? && f.value.stretched ==> f.value.content == Canvas(tw, th)
    ensures f.Some? && !f.value.stretched ==>
              var r := f.value.content;
              && ow > 0 && oh > 0
              && (r.right - r.left, r.bottom - r.top) == ScaledSize(ow, oh, tw, th)
              && r.top == 0
              && 0 <= (tw - r.right) - r.left <= 1
  {
    var stretch := if tw == 0 || th == 0 then None else Some(Fitted(tw, th, Canvas(tw, th), true));
    if ow == 0 || oh == 0 then stretch
    else
      var s := ScaledSize(ow, oh, tw, th);
      if s.0 == 0 || s.1 == 0 then stretch
      else Some(Fitted(tw, th, Placed((tw - s.0) / 2, 0, s.0, s.1), false))
  }

  /** The shadow is ten boxes of the image's size, each one pixel further
      down and right than the last, fading as they go. */
  datatype ShadowLayer = ShadowLayer(box: Rect, alpha: int)

  /** The loop of `_add_shadow` on an image of size w x h. */
  method ShadowLayers(w: nat, h: nat) returns (layers: seq<ShadowLayer>)
    ensures |layers| == 10
    ensures forall i :: 0 <= i < |layers| ==> 2 <= layers[i].alpha <= 20
    ensures forall i, j :: 0 <= i < j < |layers| ==> layers[j].alpha < layers[i].alpha
    ensures forall i :: 0 <= i < |layers| ==> layers[i].alpha == 20 - 2 * i
    ensures forall i :: 0 <= i < |layers| ==>
              && layers[i].box.left == layers[i].box.top == 10 + i
              && layers[i].box.right - layers[i].box.left == w
              && layers[i].box.bottom - layers[i].box.top == h
    ensures forall i :: 0 <= i < |layers| ==> Within(layers[i].box, Canvas(w + 19, h + 19))
    ensures forall i :: 0 <= i < |layers| ==>
              Within(layers[i].box, Canvas(ShadowedSize(w, h, false).0, ShadowedSize(w, h, false).1))
  {
    layers := [];
    var i := 0;
    while i < 10
      invariant 0 <= i <= 10 && |layers| == i
      invariant forall k :: 0 <= k < i ==> layers[k].alpha == 20 - 2 * k
      invariant forall k :: 0 <= k < i ==> layers[k].box == Rect(10 + k, 10 + k, w + 10 + k, h + 10 + k)
    {
      layers := layers + [ShadowLayer(Rect(10 + i, 10 + i, w + 10 + i, h + 10 + i), 20 - i * 2)];
      i := i + 1;
    }
  }

  /** Size of `_add_shadow`'s result: 20 px larger each way, or the image
      itself when the shadow could not be drawn. The image keeps its place
      at (0, 0) on the larger canvas. */
  function ShadowedSize(w: nat, h: nat, shadowFails: bool): (r: (nat, nat))
    ensures shadowFails ==> r == (w, h)
    ensures !shadowFails ==> r.0 == w + 20 && r.1 == h + 20 && Within(Canvas(w, h), Canvas(r.0, r.1))
  {
    if shadowFails then (w, h) else (w + 20, h + 20)
  }

  /** The dictionary `create_mockup` returns, with the size of the saved image. */
  datatype MockupResult =
    | Mocked(path: string, filename: string, width: nat, height: nat)
    | MockupFailed(error: string)

  /** What one `create_mockup` call meets outside the model: whether the
      screenshot exists, creating the output folder, decoding the screenshot
      (its size), drawing the shadow, and saving the PNG. */
  datatype MockupIO = MockupIO(
    fileExists: bool,
    folderError: Option<string>,
    decoded: Result<(nat, nat)>,
    shadowFails: bool,
    saveError: Option<string>)

  /** `create_mockup(screenshot_path, device_type, output_folder)`. A missing
      file is reported before the class is checked; any later exception is
      caught and its message returned. */
  function CreateMockup(screenshotPath: string, deviceType: string, folder: string, io: MockupIO): (r: MockupResult)
    ensures !io.fileExists ==> r == MockupFailed("Screenshot file not found")
    ensures io.fileExists && ParseClass(deviceType).None? ==>
              r == MockupFailed("Unsupported device type for mockup: " + deviceType)
    ensures r.Mocked? <==>
              io.fileExists && ParseClass(deviceType).Some? && io.folderError.None?
              && io.decoded.Success? && io.saveError.None?
    ensures r.Mocked? ==>
              && r.filename == "mockup_" + Basename(screenshotPath)
              && r.path == Join(folder, r.filename)
              && var canvas := CanvasOf(ParseClass(deviceType).value);
                 (r.width, r.height) == ShadowedSize(canvas.right, canvas.bottom, io.shadowFails)
  {
    if !io.fileExists then MockupFailed("Screenshot file not found")
    else match ParseClass(deviceType)
      case None => MockupFailed("Unsupported device type for mockup: " + deviceType)
      case Some(c) =>
        if io.folderError.Some? then MockupFailed(io.folderError.value)
        else match io.decoded
          case Failure(e) => MockupFailed(e)
          case Success(size) =>
            var cfg := ConfigOf(c);
            var fitted := Fit(size.0, size.1, cfg.screenWidth, cfg.screenHeight);
            if fitted.None? then MockupFailed("height and width must be > 0")
            else
              var canvas := CanvasOf(c);
              var out := ShadowedSize(canvas.right, canvas.bottom, io.shadowFails);
              var filename := MockupFilename(screenshotPath);
              if io.saveError.Some? then MockupFailed(io.saveError.value)
              else Mocked(Join(folder, filename), filename, out.0, out.1)
  }

  /** The fitted screenshot, placed at the screen's origin, stays inside the
      screen area for any screenshot size, so it never covers the frame. */
  lemma ContentInsideScreen(c: DeviceClass, ow: nat, oh: nat)
    ensures Fit(ow, oh, ConfigOf(c).screenWidth, ConfigOf(c).screenHeight).Some?
    ensures var f := Fit(ow, oh, ConfigOf(c).screenWidth, ConfigOf(c).screenHeight).value;
            var s := ScreenRect(c);
            Within(Placed(s.left + f.content.left, s.top + f.content.top,
                          f.content.right - f.content.left, f.content.bottom - f.content.top), s)
  {
  }
}

=== FILE: naming.dfy ===
/** The deterministic file names: a capture is saved as
    `{safe device name}_{width}x{height}.png`, its mockup as `mockup_` followed
    by the capture's base name. */
module Naming {
  import opened Wrappers
  import opened Text

  /** `device_name.replace(' ', '_').lower()` */
  function SafeDeviceName(name: string): (r: string)
    ensures |r| == |name|
    ensures ' ' !in r
    ensures forall i :: 0 <= i < |r| ==> !IsUpper(r[i])
    ensures forall i :: 0 <= i < |name| && name[i] == ' ' ==> r[i] == '_'
    ensures forall i :: 0 <= i < |name| && name[i] != ' ' && !IsUpper(name[i]) ==> r[i] == name[i]
    ensures forall i :: 0 <= i < |name| && IsUpper(name[i]) ==> r[i] as int == name[i] as int + 32
  {
    Lower(Replace(name, ' ', '_'))
  }

  /** A name that is already safe is left alone. */
  lemma SafeDeviceNameIdempotent(name: string)
    ensures SafeDeviceName(SafeDeviceName(name)) == SafeDeviceName(name)
  {
    var s := SafeDeviceName(name);
    var t := SafeDeviceName(s);
    assert forall i :: 0 <= i < |s| ==> t[i] == s[i];
  }

  function CaptureFilename(name: string, width: nat, height: nat): string {
    SafeDeviceName(name) + "_" + Decimal(width) + "x" + Decimal(height) + ".png"
  }

  predicate EndsWith(s: string, suffix: string) {
    |suffix| <= |s| && s[|s| - |suffix|..] == suffix
  }

  /** Reads `{w}x{h}` back: split at the first 'x', both sides decimal. */
  function ParseDimensions(dims: string): Option<(nat, nat)> {
    match IndexOf(dims, 'x')
    case None => None
    case Some(x) =>
      var w := dims[..x];
      var h := dims[x + 1..];
      if |w| > 0 && |h| > 0 && AllDigits(w) && AllDigits(h)
      then Some((ParseDecimal(w), ParseDecimal(h)))
      else None
  }

  /** Reads `{stem}_{w}x{h}` back: the dimensions follow the last '_'. */
  function ParseStemAndDimensions(body: string): Option<(string, nat, nat)> {
    match LastIndexOf(body, '_')
    case None => None
    case Some(u) =>
      match ParseDimensions(body[u + 1..])
      case None => None
      case Some(d) => Some((body[..u], d.0, d.1))
  }

  /** Reads the safe name, width and height back out of a capture file name. */
  function ParseCaptureFilename(f: string): Option<(string, nat, nat)> {
    if EndsWith(f, ".png") then ParseStemAndDimensions(f[..|f| - 4]) else None
  }

  /** `{w}x{h}` for digit strings parses back to its two numbers. */
  lemma ParseDimensionsOf(w: string, h: string)
    requires |w| > 0 && |h| > 0 && AllDigits(w) && AllDigits(h)
    ensures ParseDimensions(w + "x" + h) == Some((ParseDecimal(w), ParseDecimal(h)))
  {
    var dims := w + "x" + h;
    assert 'x' !in w by {
      assert forall i :: 0 <= i < |w| ==> IsDigit(w[i]);
    }
    IndexOfSplit(w, 'x', h);
    assert dims[..|w|] == w && dims[|w| + 1..] == h;
  }

  /** `{w}x{h}` for digit strings holds no '_'. */
  lemma NoUnderscoreInDimensions(w: string, h: string)
    requires AllDigits(w) && AllDigits(h)
    ensures '_' !in w + "x" + h
  {
    var dims := w + "x" + h;
    assert forall i :: 0 <= i < |w| ==> dims[i] == w[i];
    assert forall i :: |w| < i < |dims| ==> dims[i] == h[i - |w| - 1];
  }

  /** Splitting at the last '_' recovers a stem followed by '_'-free dimensions. */
  lemma ParseStemOf(s: string, dims: string)
    requires '_' !in dims
    ensures ParseStemAndDimensions(s + "_" + dims)
            == match ParseDimensions(dims)
               case None => None
               case Some(d) => Some((s, d.0, d.1))
  {
    var body := s + "_" + dims;
    LastIndexOfSplit(s, '_', dims);
    assert body[|s| + 1..] == dims;
    assert body[..|s|] == s;
  }

  /** The file name determines the device's safe name and the viewport size. */
  lemma CaptureFilenameRoundTrip(name: string, width: nat, height: nat)
    ensures ParseCaptureFilename(CaptureFilename(name, width, height))
            == Some((SafeDeviceName(name), width, height))
  {
    var s := SafeDeviceName(name);
    var w, h := Decimal(width), Decimal(height);
    var f := CaptureFilename(name, width, height);
    assert f == (s + "_" + (w + "x" + h)) + ".png";
    assert f[..|f| - 4] == s + "_" + (w + "x" + h);
    NoUnderscoreInDimensions(w, h);
    ParseStemOf(s, w + "x" + h);
    ParseDimensionsOf(w, h);
    DecimalRoundTrip(width);
    DecimalRoundTrip(height);
  }

  /** Two captures share a file name only when they agree on the safe name
      and on both dimensions. */
  lemma CaptureFilenameInjective(n1: string, w1: nat, h1: nat, n2: string, w2: nat, h2: nat)
    requires CaptureFilename(n1, w1, h1) == CaptureFilename(n2, w2, h2)
    ensures SafeDeviceName(n1) == SafeDeviceName(n2) && w1 == w2 && h1 == h2
  {
    CaptureFilenameRoundTrip(n1, w1, h1);
    CaptureFilenameRoundTrip(n2, w2, h2);
  }

  /** `"mockup_" + name + ext` where `name, ext = splitext(basename(path))`. */
  function MockupFilename(screenshotPath: string): (r: string)
    ensures r == "mockup_" + Basename(screenshotPath)
    ensures '/' !in r
  {
    var parts := SplitExt(Basename(screenshotPath));
    "mockup_" + parts.0 + parts.1
  }
}

=== FILE: replies.dfy ===
/** What the HTTP handlers share: a status code with either a payload or
    an error message, the device list a generation request asks for, and the
    count message of the generation replies. */
module Replies {
  import opened Wrappers
  import opened Text
  import opened Json

  datatype Reply<T> = Reply(status: nat, body: Result<T>)

  /** The body of a generation reply: the count message and the rows. */
  datatype Generated<R> = Generated(message: string, screenshots: seq<R>)

  const AllDevices := JArr([JStr("mobile"), JStr("tablet"), JStr("desktop")])

  /** `data.get('devices', ['mobile', 'tablet', 'desktop'])`. */
  function RequestedDevices(data: Json): (r: Result<Json>)
    ensures r.Success? <==> data.JObj?
    ensures r.Success? ==>
              r.value == (if Lookup(data.fields, "devices").Some? then Lookup(data.fields, "devices").value else AllDevices)
  {
    match DictGet(data, "devices")
    case Failure(e) => Failure(e)
    case Success(None) => Success(AllDevices)
    case Success(Some(d)) => Success(d)
  }

  /** `f'Generated {n} screenshots'`. */
  function GeneratedMessage(n: nat): string {
    "Generated " + Decimal(n) + " screenshots"
  }

  /** Reads the count back out of a generation message. */
  function ParseGeneratedMessage(m: string): Option<nat> {
    if |m| > 22 && m[..10] == "Generated " && m[|m| - 12..] == " screenshots"
       && AllDigits(m[10..|m| - 12])
    then Some(ParseDecimal(m[10..|m| - 12]))
    else None
  }

  /** The message states the count it was made from. */
  lemma GeneratedMessageRoundTrip(n: nat)
    ensures ParseGeneratedMessage(GeneratedMessage(n)) == Some(n)
  {
    var d := Decimal(n);
    var m := GeneratedMessage(n);
    assert m[..10] == "Generated ";
    assert m[10..|m| - 12] == d;
    assert m[|m| - 12..] == " screenshots";
    DecimalRoundTrip(n);
  }

  /** Different counts give different messages. */
  lemma GeneratedMessageInjective(a: nat, b: nat)
    requires GeneratedMessage(a) == GeneratedMessage(b)
    ensures a == b
  {
    GeneratedMessageRoundTrip(a);
    GeneratedMessageRoundTrip(b);
  }
}

=== FILE: seqs.dfy ===
/** Order-preserving selection from a sequence, the shape of every
    "skip this one and carry on" loop in the coordinators. */
module Seqs {
  import opened Wrappers

  /** The elements of `s` that satisfy `keep`, in their original order. */
  function Select<T>(s: seq<T>, keep: T -> bool): (r: seq<T>)
    ensures |r| <= |s|
    ensures forall x :: x in r ==> x in s && keep(x)
    ensures (forall i :: 0 <= i < |s| ==> keep(s[i])) ==> r == s
  {
    if s == [] then []
    else (if keep(s[0]) then [s[0]] else []) + Select(s[1..], keep)
  }

  /** Selecting from a concatenation selects from each part. */
  lemma {:induction false} SelectAppend<T>(a: seq<T>, b: seq<T>, keep: T -> bool)
    ensures Select(a + b, keep) == Select(a, keep) + Select(b, keep)
  {
    if a == [] {
      assert a + b == b;
    } else {
      assert (a + b)[1..] == a[1..] + b;
      SelectAppend(a[1..], b, keep);
    }
  }

  /** One more element is selected exactly when it satisfies `keep`. */
  lemma SelectSnoc<T>(s: seq<T>, i: nat, keep: T -> bool)
    requires i < |s|
    ensures Select(s[..i + 1], keep) == Select(s[..i], keep) + (if keep(s[i]) then [s[i]] else [])
  {
    assert s[..i + 1] == s[..i] + [s[i]];
    SelectAppend(s[..i], [s[i]], keep);
  }

  /** Every element that satisfies `keep` is selected, and before it come
      exactly the selected elements of the prefix that precedes it. */
  lemma {:induction false} SelectPosition<T>(s: seq<T>, i: nat, keep: T -> bool)
    requires i < |s| && keep(s[i])
    ensures var k := |Select(s[..i], keep)|;
            k < |Select(s, keep)| && Select(s, keep)[k] == s[i]
  {
    assert s == s[..i + 1] + s[i + 1..];
    SelectSnoc(s, i, keep);
    SelectAppend(s[..i + 1], s[i + 1..], keep);
  }

  /** The loop "for each selected element, in order, make a value or fail":
      the j-th selected element is made with number j, and the first
      failure ends the run with its error. */
  method MapSelected<T, R>(s: seq<T>, keep: T -> bool, make: (T, nat) -> Result<R>) returns (out: Result<seq<R>>)
    ensures out.Success? ==>
              forall j :: 0 <= j < |Select(s, keep)| ==> make(Select(s, keep)[j], j).Success?
    ensures (forall j :: 0 <= j < |Select(s, keep)| ==> make(Select(s, keep)[j], j).Success?) ==> out.Success?
    ensures out.Success? ==>
              && |out.value| == |Select(s, keep)|
              && forall j :: 0 <= j < |out.value| ==> make(Select(s, keep)[j], j) == Success(out.value[j])
    ensures out.Failure? ==>
              exists j :: 0 <= j < |Select(s, keep)|
                && make(Select(s, keep)[j], j) == Failure(out.error)
                && forall i :: 0 <= i < j ==> make(Select(s, keep)[i], i).Success?
  {
    var selected := Select(s, keep);
    var made: seq<R> := [];
    var j := 0;
    while j < |selected|
      invariant 0 <= j <= |selected| && |made| == j
      invariant forall k :: 0 <= k < j ==> make(selected[k], k) == Success(made[k])
    {
      var r := make(selected[j], j);
      if r.Failure? {
        assert !make(selected[j], j).Success?;
        return Failure(r.error);
      }
      made := made + [r.value];
      j := j + 1;
    }
    out := Success(made);
  }

  /** The values of the `Some` entries, in order. */
  function Values<T>(s: seq<Option<T>>): (r: seq<T>)
    ensures |r| <= |s|
    ensures forall x :: x in r ==> Some(x) in s
    ensures (forall i :: 0 <= i < |s| ==> s[i].None?) ==> r == []
  {
    if s == [] then []
    else (if s[0].Some? then [s[0].value] else []) + Values(s[1..])
  }

  lemma {:induction false} ValuesAppend<T>(a: seq<Option<T>>, b: seq<Option<T>>)
    ensures Values(a + b) == Values(a) + Values(b)
  {
    if a == [] {
      assert a + b == b;
    } else {
      assert (a + b)[1..] == a[1..] + b;
      ValuesAppend(a[1..], b);
    }
  }

  /** Each `Some` entry is kept: its value follows exactly the values of the
      entries before it, whatever the entries after it are. */
  lemma ValuesPosition<T>(s: seq<Option<T>>, i: nat)
    requires i < |s| && s[i].Some?
    ensures var k := |Values(s[..i])|;
            k < |Values(s)| && Values(s)[k] == s[i].value
  {
    assert s == s[..i] + [s[i]] + s[i + 1..];
    ValuesAppend(s[..i] + [s[i]], s[i + 1..]);
    ValuesAppend(s[..i], [s[i]]);
  }
}

=== FILE: storage.dfy ===
/** Where the Django app keeps its files (screenshots/models.py) and how it
    stores paths relative to the media root (screenshots/tasks.py). Paths
    are POSIX strings; `relpath` is modelled on path components. */
module Storage {
  import opened Wrappers
  import opened Text
  import opened Catalog

  /** `Screenshot.DEVICE_TYPES`: the stored device type keys. */
  const DeviceTypes: seq<string> := ["mobile", "tablet", "desktop"]

  /** The stored device types are exactly the catalog's classes, in order. */
  lemma DeviceTypesAreClasses()
    ensures |DeviceTypes| == |Classes|
    ensures forall i :: 0 <= i < |DeviceTypes| ==> DeviceTypes[i] == ClassName(Classes[i])
    ensures forall t :: t in DeviceTypes <==> ParseClass(t).Some?
  {
  }

  /** A `Project` row. */
  datatype Project = Project(id: nat, name: string, websiteUrl: string)

  /** A `Screenshot` row of project `projectId`. Paths are relative to the
      media root; an empty `mockupPath` means there is no mockup. */
  datatype Screenshot = Screenshot(
    id: nat, projectId: nat, deviceType: string, deviceName: string, width: nat, height: nat,
    originalPath: string, mockupPath: string)

  /** `get_project_folder`. */
  function ProjectFolder(root: string, id: nat): string {
    Join(root, "user1/project_" + Decimal(id))
  }

  const NormalDir := "normal_screenshots"
  const MockupDir := "mockup_screenshots"

  function NormalFolder(root: string, id: nat): string {
    Join(ProjectFolder(root, id), NormalDir)
  }

  function MockupFolder(root: string, id: nat): string {
    Join(ProjectFolder(root, id), MockupDir)
  }

  /** The project folder ends in the project's decimal id, never in '/'. */
  lemma ProjectFolderEnd(root: string, id: nat)
    ensures var f := ProjectFolder(root, id);
            f != "" && f[|f| - 1] != '/' 
  {
    var b := "user1/project_" + Decimal(id);
    var f := ProjectFolder(root, id);
    assert f[|f| - |b|..] == b;
    assert f[|f| - 1] == b[|b| - 1] == Decimal(id)[|Decimal(id)| - 1];
  }

  /** The two screenshot folders of a directory that does not end in '/':
      distinct children, each one '/' below it. */
  lemma ScreenshotSubfolders(dir: string)
    requires dir != "" && dir[|dir| - 1] != '/'
    ensures Join(dir, NormalDir) == dir + "/" + NormalDir
    ensures Join(dir, MockupDir) == dir + "/" + MockupDir
    ensures Join(dir, NormalDir) != Join(dir, MockupDir)
  {
    assert NormalDir[0] == 'n' && MockupDir[0] == 'm';
    assert (dir + "/" + NormalDir)[|dir| + 1] == 'n';
    assert (dir + "/" + MockupDir)[|dir| + 1] == 'm';
  }

  /** The two screenshot folders are distinct direct children of the
      project folder. */
  lemma {:induction false} FolderLayout(root: string, id: nat)
    ensures NormalFolder(root, id) == ProjectFolder(root, id) + "/" + NormalDir
    ensures MockupFolder(root, id) == ProjectFolder(root, id) + "/" + MockupDir
    ensures NormalFolder(root, id) != MockupFolder(root, id)
  {
    ProjectFolderEnd(root, id);
    ScreenshotSubfolders(ProjectFolder(root, id));
  }

  /** Two directories that do not end in '/' and share a child are equal. */
  lemma JoinCancel(d1: string, d2: string, name: string)
    requires d1 != "" && d1[|d1| - 1] != '/' && d2 != "" && d2[|d2| - 1] != '/'
    requires !IsAbsolute(name) && Join(d1, name) == Join(d2, name)
    ensures d1 == d2
  {
    var j := Join(d1, name);
    assert j == d1 + "/" + name == d2 + "/" + name;
    assert d1 == j[..|d1|] && d2 == j[..|d2|];
  }

  /** Distinct projects never share a folder. */
  lemma {:induction false} ProjectFolderInjective(root: string, id1: nat, id2: nat)
    requires ProjectFolder(root, id1) == ProjectFolder(root, id2)
    ensures id1 == id2
  {
    var b1 := "user1/project_" + Decimal(id1);
    var b2 := "user1/project_" + Decimal(id2);
    JoinInjective(root, b1, b2);
    assert Decimal(id1) == b1[14..] == b2[14..] == Decimal(id2);
    DecimalInjective(id1, id2);
  }

  /** Nor a folder of screenshots. */
  lemma {:induction false} NormalFolderInjective(root: string, id1: nat, id2: nat)
    requires NormalFolder(root, id1) == NormalFolder(root, id2)
    ensures id1 == id2
  {
    ProjectFolderEnd(root, id1);
    ProjectFolderEnd(root, id2);
    JoinCancel(ProjectFolder(root, id1), ProjectFolder(root, id2), NormalDir);
    ProjectFolderInjective(root, id1, id2);
  }

  /** Nor a folder of mockups. */
  lemma {:induction false} MockupFolderInjective(root: string, id1: nat, id2: nat)
    requires MockupFolder(root, id1) == MockupFolder(root, id2)
    ensures id1 == id2
  {
    ProjectFolderEnd(root, id1);
    ProjectFolderEnd(root, id2);
    JoinCancel(ProjectFolder(root, id1), ProjectFolder(root, id2), MockupDir);
    ProjectFolderInjective(root, id1, id2);
  }

  /** `original_filename` / `mockup_filename`: the base name of a stored
      path, or `None` when the path is empty. */
  function StoredFilename(path: string): (r: Option<string>)
    ensures r.None? <==> path == ""
    ensures r.Some? ==> '/' !in r.value && |r.value| <= |path| && r.value == path[|path| - |r.value|..]
  {
    if path == "" then None else Some(Basename(path))
  }

  /** A file saved under a folder reports the name it was saved as. */
  lemma StoredFilenameOfJoin(folder: string, name: string)
    requires name != "" && '/' !in name
    ensures StoredFilename(Join(folder, name)) == Some(name)
  {
    BasenameOfJoin(folder, name);
  }

  /** `s.split('/')`. */
  function Split(s: string): (parts: seq<string>)
    ensures |parts| >= 1
    ensures forall i :: 0 <= i < |parts| ==> '/' !in parts[i]
    decreases |s|
  {
    match IndexOf(s, '/')
    case None => [s]
    case Some(i) => [s[..i]] + Split(s[i + 1..])
  }

  /** `'/'.join(parts)`. */
  function JoinAll(parts: seq<string>): (r: string)
    ensures |parts| > 0 ==> |parts[0]| <= |r| && r[..|parts[0]|] == parts[0]
  {
    if |parts| == 0 then ""
    else if |parts| == 1 then parts[0]
    else parts[0] + "/" + JoinAll(parts[1..])
  }

  /** A '/' after a part without one splits that part off. */
  lemma SplitAt(x: string, y: string)
    requires '/' !in x
    ensures Split(x + "/" + y) == [x] + Split(y)
  {
    var s := x + "/" + y;
    IndexOfSplit(x, '/', y);
    assert s[..|x|] == x && s[|x| + 1..] == y;
  }

  /** Splitting at a '/' splits the two sides separately. */
  lemma {:induction false} SplitAppend(a: string, b: string)
    ensures Split(a + "/" + b) == Split(a) + Split(b)
    decreases |a|
  {
    if '/' !in a {
      SplitAt(a, b);
      assert Split(a) == [a];
    } else {
      var i := IndexOf(a, '/').value;
      var a0, a1 := a[..i], a[i + 1..];
      assert a == a0 + "/" + a1;
      SplitAppend(a1, b);
      SplitAppendStep(a0, a1, b);
    }
  }

  /** The step of `SplitAppend`: a first part without '/' is split off
      on both sides. */
  lemma SplitAppendStep(a0: string, a1: string, b: string)
    requires '/' !in a0
    requires Split(a1 + "/" + b) == Split(a1) + Split(b)
    ensures Split(a0 + "/" + a1 + "/" + b) == Split(a0 + "/" + a1) + Split(b)
  {
    Associative(a0 + "/", a1 + "/", b);
    Associative(a0 + "/", a1, "/");
    SplitAt(a0, a1 + "/" + b);
    SplitAt(a0, a1);
    Associative([a0], Split(a1), Split(b));
  }

  lemma Associative<T>(p: seq<T>, q: seq<T>, r: seq<T>)
    ensures p + (q + r) == (p + q) + r
  {
  }

  /** Joining the parts of a split gives the string back. */
  lemma {:induction false} JoinSplit(s: string)
    ensures JoinAll(Split(s)) == s
    decreases |s|
  {
    match IndexOf(s, '/')
    case None =>
    case Some(i) =>
      var rest := s[i + 1..];
      var t := Split(rest);
      assert Split(s) == [s[..i]] + t;
      assert ([s[..i]] + t)[1..] == t;
      assert JoinAll(Split(s)) == s[..i] + "/" + JoinAll(t);
      JoinSplit(rest);
      assert s == s[..i] + "/" + rest;
  }

  /** Drops the empty and "." parts, as `normpath` does. */
  function Clean(parts: seq<string>): (r: seq<string>)
    ensures |r| <= |parts|
    ensures forall x :: x in r ==> x in parts && x != "" && x != "."
  {
    if parts == [] then []
    else (if parts[0] == "" || parts[0] == "." then [] else [parts[0]]) + Clean(parts[1..])
  }

  lemma {:induction false} CleanAppend(a: seq<string>, b: seq<string>)
    ensures Clean(a + b) == Clean(a) + Clean(b)
  {
    if a != [] {
      assert (a + b)[1..] == a[1..] + b;
      CleanAppend(a[1..], b);
    } else {
      assert a + b == b;
    }
  }

  /** Parts with nothing to drop are kept as they are. */
  lemma {:induction false} CleanKeeps(parts: seq<string>)
    requires forall i :: 0 <= i < |parts| ==> parts[i] != "" && parts[i] != "."
    ensures Clean(parts) == parts
  {
    if parts != [] {
      CleanKeeps(parts[1..]);
    }
  }

  /** The components of a path: its '/'-separated parts without empty and
      "." ones. */
  function Components(p: string): seq<string> {
    Clean(Split(p))
  }

  /** A path joined onto a directory has the directory's components
      followed by its own. */
  lemma {:induction false} ComponentsOfJoin(a: string, b: string)
    requires !IsAbsolute(b)
    ensures Components(Join(a, b)) == Components(a) + Components(b)
  {
    if a == "" {
      assert Join(a, b) == b;
      assert Components(a) == [];
    } else if a[|a| - 1] == '/' {
      var a0 := a[..|a| - 1];
      assert a == a0 + "/" + "";
      assert Join(a, b) == a0 + "/" + b;
      SplitAppend(a0, "");
      SplitAppend(a0, b);
      assert Split("") == [""];
      CleanAppend(Split(a0), [""]);
      CleanAppend(Split(a0), Split(b));
    } else {
      SplitAppend(a, b);
      CleanAppend(Split(a), Split(b));
    }
  }

  /** The length of the longest common prefix. */
  function CommonPrefix(p: seq<string>, s: seq<string>): (k: nat)
    ensures k <= |p| && k <= |s| && p[..k] == s[..k]
    ensures k < |p| && k < |s| ==> p[k] != s[k]
  {
    if p == [] || s == [] || p[0] != s[0] then 0
    else
      var k := 1 + CommonPrefix(p[1..], s[1..]);
      assert p[..k] == [p[0]] + p[1..][..k - 1];
      assert s[..k] == [s[0]] + s[1..][..k - 1];
      k
  }

  lemma {:induction false} CommonPrefixOfExtension(s: seq<string>, rest: seq<string>)
    ensures CommonPrefix(s + rest, s) == |s|
  {
    if s != [] {
      assert (s + rest)[1..] == s[1..] + rest;
      CommonPrefixOfExtension(s[1..], rest);
    }
  }

  /** `os.path.relpath(path, start)` for two absolute (or two relative)
      paths without ".." components: climb out of the part of `start` that
      `path` does not share, then descend into the rest of `path`. An empty
      `path` raises. */
  function RelPath(path: string, start: string): (r: Option<string>)
    ensures r.None? <==> path == ""
    ensures r.Some? ==> r.value != ""
  {
    if path == "" then None
    else
      var p, s := Components(path), Components(start);
      var k := CommonPrefix(p, s);
      var parts := seq(|s| - k, _ => "..") + p[k..];
      if parts == [] then Some(".")
      else
        assert parts[0] != "" by {
          if |s| - k == 0 {
            assert parts[0] == p[k] && p[k] in p;
          }
        }
        Some(JoinAll(parts))
  }

  /** A path relative to itself is ".". */
  lemma RelPathSelf(p: string)
    requires p != ""
    ensures RelPath(p, p) == Some(".")
  {
  }

  /** A path built by joining a relative path onto `root` is, relative to
      `root`, that relative path in normal form; a relative path that is
      already normal comes back unchanged. */
  lemma {:induction false} RelPathOfJoin(root: string, rel: string)
    requires !IsAbsolute(rel) && Components(rel) != []
    ensures RelPath(Join(root, rel), root) == Some(JoinAll(Components(rel)))
    ensures (forall i :: 0 <= i < |Split(rel)| ==> Split(rel)[i] != "" && Split(rel)[i] != ".") ==>
              RelPath(Join(root, rel), root) == Some(rel)
  {
    var path := Join(root, rel);
    ComponentsOfJoin(root, rel);
    assert path != "" by {
      assert |rel| <= |path|;
    }
    var p, s := Components(path), Components(root);
    CommonPrefixOfExtension(s, Components(rel));
    assert p[|s|..] == Components(rel);
    assert seq(|s| - |s|, _ => "..") + p[|s|..] == Components(rel);
    if forall i :: 0 <= i < |Split(rel)| ==> Split(rel)[i] != "" && Split(rel)[i] != "." {
      CleanKeeps(Split(rel));
      JoinSplit(rel);
    }
  }

  /** `make_relative_path`: the path relative to the media root, with any
      backslash turned into '/'. */
  function MakeRelative(absPath: string, mediaRoot: string): (r: Option<string>)
    ensures r.None? <==> absPath == ""
    ensures r.Some? ==> '\\' !in r.value && r.value != ""
  {
    match RelPath(absPath, mediaRoot)
    case None => None
    case Some(rel) => Some(Replace(rel, '\\', '/'))
  }

  /** A file stored under the media root is recorded by its path below the
      root, unchanged when that path is normal and has no backslash. */
  lemma MakeRelativeOfJoin(mediaRoot: string, rel: string)
    requires !IsAbsolute(rel) && Components(rel) != [] && '\\' !in rel
    requires forall i :: 0 <= i < |Split(rel)| ==> Split(rel)[i] != "" && Split(rel)[i] != "."
    ensures MakeRelative(Join(mediaRoot, rel), mediaRoot) == Some(rel)
  {
    RelPathOfJoin(mediaRoot, rel);
    ReplaceAbsent(rel, '\\', '/');
  }
}

=== FILE: tasks.dfy ===
/** The background jobs of screenshots/tasks.py: capture a project's
    devices and record each successful capture with its mockup, and
    regenerate one stored screenshot in place. The list-based capture call
    these jobs make is an order-preserving oracle: one tagged result per
    listed device, or an exception. The database, the file moves and the
    folder creation are oracles too. */
module Tasks {
  import opened Wrappers
  import opened Text
  import opened Catalog
  import opened Capture
  import opened Storage
  import opened Seqs
  import Mockup

  /** `devices or ['mobile', 'tablet', 'desktop']`. */
  function DefaultDevices(devices: Option<seq<string>>): (r: seq<string>)
    ensures r != []
    ensures devices.Some? && devices.value != [] ==> r == devices.value
    ensures devices.None? || devices.value == [] ==> r == DeviceTypes
    ensures devices.None? || devices.value == [] ==> forall c :: ClassName(c) in r
  {
    if devices.Some? && devices.value != [] then devices.value else DeviceTypes
  }

  predicate Known(t: string) {
    ParseClass(t).Some?
  }

  /** A device the capture is asked for: its class and the class's first profile. */
  datatype Device = Device(profile: Profile, deviceClass: DeviceClass)

  function DeviceFor(t: string): (d: Device)
    requires Known(t)
    ensures ClassName(d.deviceClass) == t && d.profile == Representative(d.deviceClass)
  {
    Device(Representative(ParseClass(t).value), ParseClass(t).value)
  }

  /** The `device_list` loop: unknown keys are skipped, the known ones are
      listed in request order with their class's first profile. */
  function DeviceList(devices: seq<string>): (r: seq<Device>)
    ensures |r| == |Select(devices, Known)|
    ensures forall j :: 0 <= j < |r| ==> r[j] == DeviceFor(Select(devices, Known)[j])
  {
    if devices == [] then []
    else (if Known(devices[0]) then [DeviceFor(devices[0])] else []) + DeviceList(devices[1..])
  }

  /** Every known key of the request is listed, after exactly the known
      keys that precede it. */
  lemma DeviceListKeepsKnown(devices: seq<string>, i: nat)
    requires i < |devices| && Known(devices[i])
    ensures var k := |Select(devices[..i], Known)|;
            k < |DeviceList(devices)| && DeviceList(devices)[k] == DeviceFor(devices[i])
  {
    SelectPosition(devices, i, Known);
  }

  /** The list-based capture call: an exception, or one result per listed
      device; `capture(i, d)` is the result for the i-th entry, device `d`. */
  datatype CaptureCall = CaptureCall(raised: Option<string>, capture: (nat, Device) -> CaptureResult)

  /** The results of the capture call, each tagged with its device's key. */
  function CaptureResults(list: seq<Device>, call: CaptureCall): (r: seq<TaggedResult>)
    ensures |r| == |list|
    ensures forall i :: 0 <= i < |r| ==> r[i].deviceType == ClassName(list[i].deviceClass)
    ensures forall i :: 0 <= i < |r| ==> r[i].result == call.capture(i, list[i])
  {
    seq(|list|, i requires 0 <= i < |list| => TaggedResult(ClassName(list[i].deviceClass), call.capture(i, list[i])))
  }

  predicate Succeeded(sr: TaggedResult) {
    sr.result.Captured?
  }

  /** What one job meets outside the model. The k-th mockup call meets
      `mockupIO(k)` and the k-th row insert returns `created(k)`: the new
      row's id, or the database's error. */
  datatype TaskEnv = TaskEnv(
    mediaRoot: string,
    screenshotRoot: string,
    folderError: Option<string>,
    call: CaptureCall,
    mockupIO: nat -> Mockup.MockupIO,
    created: nat -> Result<nat>)

  /** An entry of the job's `screenshots` list. */
  datatype TaskRecord = TaskRecord(id: nat, deviceType: string, originalPath: string, mockupPath: string)

  /** The mockup made for the k-th successful capture. */
  function MockupFor(sr: TaggedResult, k: nat, mockupFolder: string, env: TaskEnv): Mockup.MockupResult
    requires Succeeded(sr)
  {
    Mockup.CreateMockup(sr.result.path, sr.deviceType, mockupFolder, env.mockupIO(k))
  }

  /** The loop body for the k-th successful capture: make its mockup, then
      insert its row. `make_relative_path` raises on an empty path, and the
      insert may raise; either ends the job. */
  function RecordFor(sr: TaggedResult, k: nat, mockupFolder: string, env: TaskEnv): (r: Result<TaskRecord>)
    requires Succeeded(sr)
    ensures r.Failure? <==> sr.result.path == "" || env.created(k).Failure?
    ensures r.Failure? ==> r.error == (if sr.result.path == "" then NoPathSpecified else env.created(k).error)
    ensures r.Success? ==>
              && r.value.id == env.created(k).value
              && r.value.deviceType == sr.deviceType
              && MakeRelative(sr.result.path, env.mediaRoot) == Some(r.value.originalPath)
              && (r.value.mockupPath == "" <==> MockupFor(sr, k, mockupFolder, env).MockupFailed?)
  {
    var mockup := MockupFor(sr, k, mockupFolder, env);
    match MakeRelative(sr.result.path, env.mediaRoot)
    case None => Failure(NoPathSpecified)
    case Some(original) =>
      var mockupPath := if mockup.Mocked? then MakeRelative(mockup.path, env.mediaRoot) else Some("");
      if mockupPath.None? then Failure(NoPathSpecified)
      else match env.created(k)
        case Failure(e) => Failure(e)
        case Success(id) => Success(TaskRecord(id, sr.deviceType, original, mockupPath.value))
  }

  /** The message of the `ValueError` `relpath` raises on an empty path. */
  const NoPathSpecified := "no path specified"

  /** The result loop of `generate_screenshots`: failed captures are passed
      over, and each successful one, in capture order, gets a mockup and a
      record. The first record that cannot be made ends the loop with its
      error. */
  method CollectRecords(results: seq<TaggedResult>, mockupFolder: string, env: TaskEnv)
    returns (out: Result<seq<TaskRecord>>)
    ensures var S := Select(results, Succeeded);
            out.Success? ==> forall j :: 0 <= j < |S| ==> RecordFor(S[j], j, mockupFolder, env).Success?
    ensures var S := Select(results, Succeeded);
            (forall j :: 0 <= j < |S| ==> RecordFor(S[j], j, mockupFolder, env).Success?) ==> out.Success?
    ensures out.Success? ==>
              var S := Select(results, Succeeded);
              && |out.value| == |S|
              && forall j :: 0 <= j < |S| ==> RecordFor(S[j], j, mockupFolder, env) == Success(out.value[j])
    ensures out.Failure? ==>
              var S := Select(results, Succeeded);
              exists j :: 0 <= j < |S| && RecordFor(S[j], j, mockupFolder, env) == Failure(out.error)
                && forall i :: 0 <= i < j ==> RecordFor(S[i], i, mockupFolder, env).Success?
  {
    var S := Select(results, Succeeded);
    forall j | 0 <= j < |S| ensures Step(S[j], j, mockupFolder, env) == RecordFor(S[j], j, mockupFolder, env) {
      assert S[j] in S;
    }
    out := MapSelected(results, Succeeded, (sr: TaggedResult, k: nat) => Step(sr, k, mockupFolder, env));
  }

  /** The loop body as the loop sees it: only successful captures reach it,
      so the other branch is never taken. */
  function Step(sr: TaggedResult, k: nat, mockupFolder: string, env: TaskEnv): (r: Result<TaskRecord>)
    ensures Succeeded(sr) ==> r == RecordFor(sr, k, mockupFolder, env)
  {
    if Succeeded(sr) then RecordFor(sr, k, mockupFolder, env) else Failure("")
  }

  /** `Project.DoesNotExist`'s message, which the job returns. */
  const ProjectMissing := "Project matching query does not exist."

  /** The successful captures of a job, in capture order: the call's results
      for the known requested keys, failed ones passed over. */
  function JobSuccesses(devices: Option<seq<string>>, env: TaskEnv): (r: seq<TaggedResult>)
    ensures forall j :: 0 <= j < |r| ==> Succeeded(r[j])
  {
    Select(CaptureResults(DeviceList(DefaultDevices(devices)), env.call), Succeeded)
  }

  /** `generate_screenshots(project_id, devices)`. Every exception is caught
      and returned as the job's error. */
  method GenerateScreenshots(project: Option<Project>, devices: Option<seq<string>>, env: TaskEnv)
    returns (out: Result<seq<TaskRecord>>)
    ensures project.None? ==> out == Failure(ProjectMissing)
    ensures project.Some? && env.folderError.Some? ==> out == Failure(env.folderError.value)
    ensures project.Some? && env.folderError.None? && env.call.raised.Some? ==> out == Failure(env.call.raised.value)
    ensures out.Success? ==> project.Some? && env.folderError.None? && env.call.raised.None?
    ensures project.Some? && env.folderError.None? && env.call.raised.None? ==>
              var S := JobSuccesses(devices, env);
              var folder := MockupFolder(env.screenshotRoot, project.value.id);
              out.Success? <==> forall j :: 0 <= j < |S| ==> RecordFor(S[j], j, folder, env).Success?
    ensures out.Success? ==>
              var S := JobSuccesses(devices, env);
              var folder := MockupFolder(env.screenshotRoot, project.value.id);
              && |out.value| == |S|
              && forall j :: 0 <= j < |S| ==> RecordFor(S[j], j, folder, env) == Success(out.value[j])
    ensures project.Some? && env.folderError.None? && env.call.raised.None? && out.Failure? ==>
              var S := JobSuccesses(devices, env);
              var folder := MockupFolder(env.screenshotRoot, project.value.id);
              exists j :: 0 <= j < |S| && RecordFor(S[j], j, folder, env) == Failure(out.error)
                && forall i :: 0 <= i < j ==> RecordFor(S[i], i, folder, env).Success?
  {
    if project.None? {
      return Failure(ProjectMissing);
    }
    if env.folderError.Some? {
      return Failure(env.folderError.value);
    }
    if env.call.raised.Some? {
      return Failure(env.call.raised.value);
    }
    var folder := MockupFolder(env.screenshotRoot, project.value.id);
    out := CollectRecords(CaptureResults(DeviceList(DefaultDevices(devices)), env.call), folder, env);
  }

  /** What one regeneration meets outside the model: the capture call for
      the stored device (its results or its exception), moving the new file
      over the old one, the mockup, and saving the row. */
  datatype RegenEnv = RegenEnv(
    mediaRoot: string,
    screenshotRoot: string,
    folderError: Option<string>,
    capture: Result<seq<CaptureResult>>,
    moveError: Option<string>,
    mockupIO: Mockup.MockupIO,
    saveError: Option<string>)

  datatype RegenOutcome =
    | Regenerated(row: Screenshot, moved: bool)
    | RegenFailed(screenshotId: nat)
    | RegenError(error: string)

  /** The capture the regeneration got, when it succeeded. */
  predicate RecaptureSucceeded(env: RegenEnv) {
    env.capture.Success? && env.capture.value != [] && env.capture.value[0].Captured?
  }

  /** The mockup the regeneration makes, from the stored original's path. */
  function RegenMockup(row: Screenshot, env: RegenEnv): Mockup.MockupResult {
    Mockup.CreateMockup(Join(env.mediaRoot, row.originalPath), row.deviceType,
                        MockupFolder(env.screenshotRoot, row.projectId), env.mockupIO)
  }

  /** The new file lies elsewhere and moving it over the old one raised. */
  predicate MoveFails(row: Screenshot, env: RegenEnv)
    requires RecaptureSucceeded(env)
  {
    env.capture.value[0].path != Join(env.mediaRoot, row.originalPath) && env.moveError.Some?
  }

  /** A row without a mockup got a new one whose path cannot be made
      relative. */
  predicate MockupPathFails(row: Screenshot, env: RegenEnv) {
    row.mockupPath == "" && RegenMockup(row, env).Mocked?
    && MakeRelative(RegenMockup(row, env).path, env.mediaRoot).None?
  }

  /** `regenerate_single_screenshot(screenshot_id)`: the new capture replaces
      the stored file at its old path, the mockup is made again, and the row
      keeps its paths, except that a row without a mockup gains the new
      mockup's path when that mockup succeeds. */
  function Regenerate(row: Option<Screenshot>, env: RegenEnv): (r: RegenOutcome)
    ensures row.None? ==> r == RegenError("Not found")
    ensures r.RegenFailed? <==>
              row.Some? && env.folderError.None? && env.capture.Success? && !RecaptureSucceeded(env)
    ensures r.RegenFailed? ==> r.screenshotId == row.value.id
    ensures r.Regenerated? <==>
              && row.Some? && env.folderError.None? && RecaptureSucceeded(env)
              && !MoveFails(row.value, env) && !MockupPathFails(row.value, env)
              && env.saveError.None?
    ensures row.Some? && env.folderError.Some? ==> r == RegenError(env.folderError.value)
    ensures row.Some? && env.folderError.None? && env.capture.Failure? ==> r == RegenError(env.capture.error)
    ensures row.Some? && env.folderError.None? && RecaptureSucceeded(env) && MoveFails(row.value, env) ==>
              r == RegenError(env.moveError.value)
    ensures && row.Some? && env.folderError.None? && RecaptureSucceeded(env) && !MoveFails(row.value, env)
            && MockupPathFails(row.value, env) ==>
              r == RegenError(NoPathSpecified)
    ensures && row.Some? && env.folderError.None? && RecaptureSucceeded(env) && !MoveFails(row.value, env)
            && !MockupPathFails(row.value, env) && env.saveError.Some? ==>
              r == RegenError(env.saveError.value)
    ensures r.Regenerated? ==> r.row == row.value.(mockupPath := r.row.mockupPath)
    ensures r.Regenerated? ==>
              (r.moved <==> env.capture.value[0].path != Join(env.mediaRoot, row.value.originalPath))
    ensures r.Regenerated? ==>
              (r.row.mockupPath != row.value.mockupPath <==>
                 row.value.mockupPath == "" && RegenMockup(row.value, env).Mocked?)
  {
    if row.None? then RegenError("Not found")
    else
      var s := row.value;
      if env.folderError.Some? then RegenError(env.folderError.value)
      else match env.capture
        case Failure(e) => RegenError(e)
        case Success(results) =>
          if !RecaptureSucceeded(env) then RegenFailed(s.id)
          else
            var originalAbs := Join(env.mediaRoot, s.originalPath);
            var moved := results[0].path != originalAbs;
            if moved && env.moveError.Some? then RegenError(env.moveError.value)
            else
              var mockup := RegenMockup(s, env);
              var mockupPath :=
                if s.mockupPath != "" then Some(s.mockupPath)
                else if mockup.Mocked? then MakeRelative(mockup.path, env.mediaRoot)
                else Some("");
              if mockupPath.None? then RegenError(NoPathSpecified)
              else if env.saveError.Some? then RegenError(env.saveError.value)
              else Regenerated(s.(mockupPath := mockupPath.value), moved)
  }
}

=== FILE: text.dfy ===
/** String helpers with the meaning Python gives them: `str(n)` for a
    non-negative int, `str.lower()` on ASCII text, single-character
    `str.replace`, `str.startswith`, the `in` substring test, and the POSIX
    `os.path` functions `join`, `basename` and `splitext`. */
module Text {
  import opened Wrappers

  predicate IsDigit(c: char) { '0' <= c <= '9' }

  predicate AllDigits(s: string) {
    forall i :: 0 <= i < |s| ==> IsDigit(s[i])
  }

  function DigitChar(d: nat): (c: char)
    requires d < 10
    ensures IsDigit(c)
  {
    ('0' as int + d) as char
  }

  function DigitValue(c: char): (d: nat)
    requires IsDigit(c)
    ensures d < 10 && DigitChar(d) == c
  {
    c as int - '0' as int
  }

  /** `str(n)`: decimal digits, no leading zero. */
  function Decimal(n: nat): (s: string)
    ensures |s| > 0 && AllDigits(s)
    ensures |s| > 1 ==> s[0] != '0'
  {
    if n < 10 then [DigitChar(n)] else Decimal(n / 10) + [DigitChar(n % 10)]
  }

  /** `int(s)` for a string of decimal digits; the inverse of `Decimal`. */
  function ParseDecimal(s: string): nat
    requires AllDigits(s)
  {
    if |s| == 0 then 0 else 10 * ParseDecimal(s[..|s| - 1]) + DigitValue(s[|s| - 1])
  }

  lemma {:induction false} DecimalRoundTrip(n: nat)
    ensures ParseDecimal(Decimal(n)) == n
  {
    if n >= 10 {
      var s := Decimal(n);
      assert s[..|s| - 1] == Decimal(n / 10);
      DecimalRoundTrip(n / 10);
    }
  }

  /** Different numbers print differently. */
  lemma DecimalInjective(a: nat, b: nat)
    requires Decimal(a) == Decimal(b)
    ensures a == b
  {
    DecimalRoundTrip(a);
    DecimalRoundTrip(b);
  }

  predicate IsUpper(c: char) { 'A' <= c <= 'Z' }

  function LowerChar(c: char): char {
    if IsUpper(c) then (c as int + 32) as char else c
  }

  /** `s.lower()` for ASCII letters. */
  function Lower(s: string): (r: string)
    ensures |r| == |s|
    ensures forall i :: 0 <= i < |r| ==> !IsUpper(r[i])
    ensures forall i :: 0 <= i < |s| && !IsUpper(s[i]) ==> r[i] == s[i]
    ensures forall i :: 0 <= i < |s| && IsUpper(s[i]) ==> r[i] as int == s[i] as int + 32
  {
    seq(|s|, i requires 0 <= i < |s| => LowerChar(s[i]))
  }

  /** `s.replace(a, b)` for one-character `a` and `b`. */
  function Replace(s: string, a: char, b: char): (r: string)
    ensures |r| == |s|
    ensures a != b ==> a !in r
    ensures forall i :: 0 <= i < |s| && s[i] != a ==> r[i] == s[i]
    ensures forall i :: 0 <= i < |s| && s[i] == a ==> r[i] == b
  {
    seq(|s|, i requires 0 <= i < |s| => if s[i] == a then b else s[i])
  }

  /** Replacing a character that does not occur changes nothing. */
  lemma ReplaceAbsent(s: string, a: char, b: char)
    requires a !in s
    ensures Replace(s, a, b) == s
  {
    assert forall i :: 0 <= i < |s| ==> Replace(s, a, b)[i] == s[i];
  }

  predicate StartsWith(s: string, prefix: string) {
    |prefix| <= |s| && s[..|prefix|] == prefix
  }

  /** Python's `sub in s` on two strings. */
  predicate Contains(s: string, sub: string)
    decreases |s|
  {
    StartsWith(s, sub) || (|s| > 0 && Contains(s[1..], sub))
  }

  function LastIndexOf(s: string, c: char): (r: Option<nat>)
    ensures r.None? <==> c !in s
    ensures r.Some? ==> r.value < |s| && s[r.value] == c && c !in s[r.value + 1..]
  {
    if |s| == 0 then None
    else if s[|s| - 1] == c then Some(|s| - 1)
    else LastIndexOf(s[..|s| - 1], c)
  }

  function IndexOf(s: string, c: char): (r: Option<nat>)
    ensures r.None? <==> c !in s
    ensures r.Some? ==> r.value < |s| && s[r.value] == c && c !in s[..r.value]
  {
    if |s| == 0 then None
    else if s[0] == c then Some(0)
    else match IndexOf(s[1..], c)
      case None => None
      case Some(k) => Some(k + 1)
  }

  /** A character that does not occur after position |a| is found there by `LastIndexOf`. */
  lemma {:induction false} LastIndexOfSplit(a: string, c: char, b: string)
    requires c !in b
    ensures LastIndexOf(a + [c] + b, c) == Some(|a|)
  {
    var s := a + [c] + b;
    if b == [] {
      assert s[|s| - 1] == c;
    } else {
      assert s[|s| - 1] == b[|b| - 1];
      assert s[..|s| - 1] == a + [c] + b[..|b| - 1];
      LastIndexOfSplit(a, c, b[..|b| - 1]);
    }
  }

  /** A character that does not occur before position |a| is found there by `IndexOf`. */
  lemma {:induction false} IndexOfSplit(a: string, c: char, b: string)
    requires c !in a
    ensures IndexOf(a + [c] + b, c) == Some(|a|)
  {
    var s := a + [c] + b;
    if a == [] {
      assert s[0] == c;
    } else {
      assert s[0] == a[0];
      assert s[1..] == a[1..] + [c] + b;
      IndexOfSplit(a[1..], c, b);
    }
  }

  /** `os.path.basename`: everything after the last '/'. */
  function Basename(p: string): (r: string)
    ensures '/' !in r
    ensures |r| <= |p| && r == p[|p| - |r|..]
    ensures '/' !in p ==> r == p
  {
    match LastIndexOf(p, '/')
    case None => p
    case Some(i) => p[i + 1..]
  }

  predicate IsAbsolute(p: string) { |p| > 0 && p[0] == '/' }

  /** `os.path.join(a, b)` on POSIX: an absolute `b` replaces `a`; otherwise
      one '/' is put between them unless `a` is empty or already ends in '/'. */
  function Join(a: string, b: string): (r: string)
    ensures |b| <= |r| && r[|r| - |b|..] == b
    ensures IsAbsolute(b) ==> r == b
    ensures !IsAbsolute(b) ==> |a| <= |r| && r[..|a|] == a
    ensures !IsAbsolute(b) && a != "" ==> |r| > |a| + |b| - 1 && r[|r| - |b| - 1] == '/'
  {
    if IsAbsolute(b) then b
    else if a == "" || a[|a| - 1] == '/' then a + b
    else a + "/" + b
  }

  /** The last component of a joined path is the name that was joined. */
  lemma BasenameOfJoin(a: string, name: string)
    requires '/' !in name
    ensures Basename(Join(a, name)) == name
  {
    var r := Join(a, name);
    if a == "" {
      assert r == name;
    } else {
      var k := |r| - |name| - 1;
      assert r == r[..k] + ['/'] + name;
      LastIndexOfSplit(r[..k], '/', name);
    }
  }

  /** Joining two relative names onto the same directory gives the same path
      only if the names are equal. */
  lemma JoinInjective(a: string, b1: string, b2: string)
    requires !IsAbsolute(b1) && !IsAbsolute(b2)
    requires Join(a, b1) == Join(a, b2)
    ensures b1 == b2
  {
    var r := Join(a, b1);
    if a == "" || a[|a| - 1] == '/' {
      assert r == a + b1 && r == a + b2;
      assert b1 == r[|a|..] == b2;
    } else {
      assert r == a + "/" + b1 && r == a + "/" + b2;
      assert b1 == r[|a| + 1..] == b2;
    }
  }

  predicate AllDots(s: string) {
    forall i :: 0 <= i < |s| ==> s[i] == '.'
  }

  /** `os.path.splitext` on a name without '/': the extension runs from the
      last '.' to the end, unless only dots precede that '.' (".bashrc" has no
      extension). */
  function SplitExt(name: string): (r: (string, string))
    ensures r.0 + r.1 == name
    ensures r.1 == "" || (r.1[0] == '.' && '.' !in r.1[1..])
    ensures r.1 != "" ==> !AllDots(r.0)
  {
    match LastIndexOf(name, '.')
    case None => (name, "")
    case Some(d) =>
      if AllDots(name[..d]) then (name, "")
      else
        assert name[d..][1..] == name[d + 1..];
        (name[..d], name[d..])
  }
}

=== FILE: views.dfy ===
/** The Django JSON views of screenshots/views.py that create a project and
    generate its screenshots with `ScreenshotService` and `MockupService`.
    Unlike the Flask routes, an unexpected exception is answered with its own
    message, and a failed row insert ends the whole request. */
module Views {
  import opened Wrappers
  import opened Text
  import opened Catalog
  import opened Capture
  import opened Storage
  import opened Json
  import opened Seqs
  import opened Replies
  import Mockup
  import Api

  const InvalidJson := "Invalid JSON"
  const NameAndUrlRequired := "Name and website_url are required"
  const DevicesNotList := "devices must be a list"

  /** The message of the `Http404` that `get_object_or_404` raises. */
  const ProjectNotFound := "No Project matches the given query."

  /** What `json.loads(request.body)` gives: the decoded value, a
      `JSONDecodeError`, or another exception with its message (bytes that
      are not UTF-8 raise `UnicodeDecodeError`, which is not a
      `JSONDecodeError`). */
  datatype Body = Parsed(value: Json) | MalformedJson | Undecodable(error: string)

  /** `data.get(key)` is truthy: the key is there with a truthy value. */
  predicate Given(fields: seq<(string, Json)>, key: string) {
    Lookup(fields, key).Some? && Truthy(Lookup(fields, key).value)
  }

  /** The row `Project.objects.create` inserts, with the values as sent. */
  datatype CreatedProject = CreatedProject(id: nat, name: Json, websiteUrl: Json)

  /** `ProjectAPIView.post`. `body` is how the request body decoded;
      `create` is the insert's new id or the database's error. */
  function CreateProject(body: Body, create: Result<nat>): (r: Reply<CreatedProject>)
    ensures body.MalformedJson? ==> r == Reply(400, Failure(InvalidJson))
    ensures body.Undecodable? ==> r == Reply(500, Failure(body.error))
    ensures body.Parsed? && !body.value.JObj? ==> r == Reply(500, Failure(DictGet(body.value, "name").error))
    ensures r.status == 200 || r.status == 400 || r.status == 500
    ensures r.status == 200 <==> r.body.Success?
    ensures r.status == 400 && body.Parsed? ==> r.body == Failure(NameAndUrlRequired)
    ensures r.status == 400 <==>
              || body.MalformedJson?
              || (body.Parsed? && body.value.JObj?
                  && !(Given(body.value.fields, "name") && Given(body.value.fields, "website_url")))
    ensures r.body.Success? <==>
              && body.Parsed? && body.value.JObj?
              && Given(body.value.fields, "name") && Given(body.value.fields, "website_url")
              && create.Success?
    ensures r.body.Success? ==>
              && r.body.value.id == create.value
              && Some(r.body.value.name) == Lookup(body.value.fields, "name")
              && Some(r.body.value.websiteUrl) == Lookup(body.value.fields, "website_url")
    ensures r.status == 500 && body.Parsed? && body.value.JObj? ==> r.body == Failure(create.error)
  {
    match body
    case MalformedJson => Reply(400, Failure(InvalidJson))
    case Undecodable(e) => Reply(500, Failure(e))
    case Parsed(data) =>
      match DictGet(data, "name")
      case Failure(e) => Reply(500, Failure(e))
      case Success(name) =>
        var url := DictGet(data, "website_url").value;
        if name.None? || !Truthy(name.value) || url.None? || !Truthy(url.value) then
          Reply(400, Failure(NameAndUrlRequired))
        else match create
          case Failure(e) => Reply(500, Failure(e))
          case Success(id) => Reply(200, Success(CreatedProject(id, name.value, url.value)))
  }

  /** The two backends disagree on an empty name: the Flask route only asks
      for the key and stores the project, this view refuses it. */
  lemma EmptyNameBackendsDisagree(url: string)
    requires url != ""
    ensures var body := JObj([("name", JStr("")), ("website_url", JStr(url))]);
            && Api.CreateProject(Success(body), None).status == 201
            && CreateProject(Parsed(body), Success(0)).status == 400
  {
    var body := JObj([("name", JStr("")), ("website_url", JStr(url))]);
    assert Lookup(body.fields, "website_url") == Some(JStr(url));
    assert Lookup(body.fields, "name") == Some(JStr(""));
  }

  /** A row `ScreenshotAPIView.post` creates, as it reports it. */
  datatype ViewRecord = ViewRecord(
    id: nat, projectId: nat, deviceType: string, deviceName: string, width: nat, height: nat,
    originalPath: string, mockupPath: string)

  /** What one request meets outside the model: the capture environment of
      the k-th item of the device list, and, for the j-th successful capture,
      its mockup's environment and its insert's new id or error. */
  datatype ViewEnv = ViewEnv(
    screenshotRoot: string,
    folderError: Option<string>,
    capture: nat -> Environment,
    mockupIO: nat -> Mockup.MockupIO,
    created: nat -> Result<nat>)

  /** The loop's capture for the k-th item: only the three class names are
      captured; every other value is passed over without a capture. */
  function ItemCapture(item: Json, k: nat, project: Project, env: ViewEnv): (r: Option<TaggedResult>)
    ensures r.Some? <==> item.JStr? && ParseClass(item.s).Some?
    ensures r.Some? ==>
              && r.value.deviceType == item.s
              && r.value.result == CaptureScreenshot(item.s, NormalFolder(env.screenshotRoot, project.id), env.capture(k)).result
  {
    if item.JStr? && ParseClass(item.s).Some? then
      Some(TaggedResult(item.s, CaptureScreenshot(item.s, NormalFolder(env.screenshotRoot, project.id), env.capture(k)).result))
    else None
  }

  function Captures(items: seq<Json>, project: Project, env: ViewEnv): (r: seq<Option<TaggedResult>>)
    ensures |r| == |items|
    ensures forall k :: 0 <= k < |items| ==> r[k] == ItemCapture(items[k], k, project, env)
  {
    seq(|items|, k requires 0 <= k < |items| => ItemCapture(items[k], k, project, env))
  }

  /** An item whose capture succeeded. */
  predicate CapturedItem(o: Option<TaggedResult>) {
    o.Some? && o.value.result.Captured?
  }

  /** The mockup made for the j-th successful capture. */
  function ViewMockup(t: TaggedResult, j: nat, project: Project, env: ViewEnv): Mockup.MockupResult
    requires t.result.Captured?
  {
    Mockup.CreateMockup(t.result.path, t.deviceType, MockupFolder(env.screenshotRoot, project.id), env.mockupIO(j))
  }

  /** The loop body for the j-th successful capture: make its mockup, then
      insert its row, whose mockup path is empty exactly when the mockup
      failed. */
  function RecordFor(t: TaggedResult, j: nat, project: Project, env: ViewEnv): (r: Result<ViewRecord>)
    requires t.result.Captured?
    ensures r.Failure? <==> env.created(j).Failure?
    ensures r.Failure? ==> r.error == env.created(j).error
    ensures r.Success? ==>
              && r.value.id == env.created(j).value && r.value.projectId == project.id
              && r.value.deviceType == t.deviceType && r.value.deviceName == t.result.deviceName
              && r.value.width == t.result.width && r.value.height == t.result.height
              && r.value.originalPath == t.result.path
              && (r.value.mockupPath == "" <==> ViewMockup(t, j, project, env).MockupFailed?)
  {
    var mockup := ViewMockup(t, j, project, env);
    match env.created(j)
    case Failure(e) => Failure(e)
    case Success(id) =>
      var c := t.result;
      Success(ViewRecord(id, project.id, t.deviceType, c.deviceName, c.width, c.height, c.path,
                         if mockup.Mocked? then mockup.path else ""))
  }

  /** The successful captures of a request's device list, in list order. */
  function Successes(items: seq<Json>, project: Project, env: ViewEnv): (r: seq<Option<TaggedResult>>)
    ensures forall j :: 0 <= j < |r| ==> CapturedItem(r[j])
  {
    Select(Captures(items, project, env), CapturedItem)
  }

  /** The device loop, given the captures of the list's items: each
      successful capture, in list order, gets its row, and the first insert
      that fails ends the loop. */
  method CollectRecords(captures: seq<Option<TaggedResult>>, project: Project, env: ViewEnv)
    returns (out: Result<seq<ViewRecord>>)
    ensures var S := Select(captures, CapturedItem);
            out.Success? <==> forall j :: 0 <= j < |S| ==> env.created(j).Success?
    ensures out.Success? ==>
              var S := Select(captures, CapturedItem);
              && |out.value| == |S|
              && forall j :: 0 <= j < |S| ==> Make(S[j], j, project, env) == Success(out.value[j])
    ensures out.Failure? ==>
              exists j :: 0 <= j < |Select(captures, CapturedItem)| && env.created(j) == Failure(out.error)
                && forall i :: 0 <= i < j ==> env.created(i).Success?
  {
    var S := Select(captures, CapturedItem);
    forall j | 0 <= j < |S| ensures CapturedItem(S[j]) {
      assert S[j] in S;
    }
    MakeFollowsCreated(S, project, env);
    out := MapSelected(captures, CapturedItem, (o: Option<TaggedResult>, j: nat) => Make(o, j, project, env));
    if out.Failure? {
      var j :| 0 <= j < |S| && Make(S[j], j, project, env) == Failure(out.error)
               && forall i :: 0 <= i < j ==> Make(S[i], i, project, env).Success?;
      FirstFailedInsert(S, j, out.error, project, env);
    }
  }

  /** On captured items, a step fails exactly when its insert does, and
      with the insert's error. */
  lemma MakeFollowsCreated(S: seq<Option<TaggedResult>>, project: Project, env: ViewEnv)
    requires forall j :: 0 <= j < |S| ==> CapturedItem(S[j])
    ensures forall j :: 0 <= j < |S| ==> (Make(S[j], j, project, env).Success? <==> env.created(j).Success?)
  {
  }

  /** The first step that fails is the first insert that fails. */
  lemma FirstFailedInsert(S: seq<Option<TaggedResult>>, j: nat, e: string, project: Project, env: ViewEnv)
    requires forall i :: 0 <= i < |S| ==> CapturedItem(S[i])
    requires j < |S| && Make(S[j], j, project, env) == Failure(e)
    requires forall i :: 0 <= i < j ==> Make(S[i], i, project, env).Success?
    ensures env.created(j) == Failure(e) && forall i :: 0 <= i < j ==> env.created(i).Success?
  {
    forall i | 0 <= i < j ensures env.created(i).Success? {
      assert Make(S[i], i, project, env).Success?;
    }
  }

  /** The loop body as the loop sees it: only captured items reach it, so
      the other branch is never taken. */
  function Make(o: Option<TaggedResult>, j: nat, project: Project, env: ViewEnv): (r: Result<ViewRecord>)
    ensures CapturedItem(o) ==> (r.Success? <==> env.created(j).Success?)
    ensures CapturedItem(o) && r.Failure? ==> r.error == env.created(j).error
    ensures CapturedItem(o) ==> r == RecordFor(o.value, j, project, env)
  {
    if CapturedItem(o) then RecordFor(o.value, j, project, env) else Failure("")
  }

  /** `ScreenshotAPIView.post`. The project lookup comes first, then the
      body, then the device list; a folder error or a failed insert answers
      500 with its message. Otherwise every successful capture has its row,
      in list order. */
  method GenerateScreenshots(project: Option<Project>, body: Body, env: ViewEnv)
    returns (r: Reply<Generated<ViewRecord>>)
    ensures project.None? ==> r == Reply(500, Failure(ProjectNotFound))
    ensures project.Some? && body.MalformedJson? ==> r == Reply(400, Failure(InvalidJson))
    ensures project.Some? && body.Undecodable? ==> r == Reply(500, Failure(body.error))
    ensures project.Some? && body.Parsed? && !body.value.JObj? ==>
              r == Reply(500, Failure(DictGet(body.value, "devices").error))
    ensures project.Some? && body.Parsed? && body.value.JObj? && !RequestedDevices(body.value).value.JArr? ==>
              r == Reply(400, Failure(DevicesNotList))
    ensures project.Some? && body.Parsed? && body.value.JObj? && RequestedDevices(body.value).value.JArr?
            && env.folderError.Some? ==>
              r == Reply(500, Failure(env.folderError.value))
    ensures r.status == 200 || r.status == 400 || r.status == 500
    ensures r.status == 200 <==> r.body.Success?
    ensures project.Some? && body.Parsed? && body.value.JObj? && RequestedDevices(body.value).value.JArr?
            && env.folderError.None? && r.body.Failure? ==>
              var S := Successes(RequestedDevices(body.value).value.items, project.value, env);
              && r.status == 500
              && exists j :: 0 <= j < |S| && env.created(j) == Failure(r.body.error)
                   && forall i :: 0 <= i < j ==> env.created(i).Success?
    ensures r.body.Success? ==>
              && project.Some? && body.Parsed? && body.value.JObj?
              && RequestedDevices(body.value).value.JArr?
              && env.folderError.None?
              && var S := Successes(RequestedDevices(body.value).value.items, project.value, env);
                 && |r.body.value.screenshots| == |S|
                 && r.body.value.message == GeneratedMessage(|S|)
                 && forall j :: 0 <= j < |S| ==>
                      RecordFor(S[j].value, j, project.value, env) == Success(r.body.value.screenshots[j])
    ensures project.Some? && body.Parsed? && body.value.JObj? && RequestedDevices(body.value).value.JArr?
            && env.folderError.None? ==>
              var S := Successes(RequestedDevices(body.value).value.items, project.value, env);
              (r.body.Success? <==> forall j :: 0 <= j < |S| ==> env.created(j).Success?)
  {
    if project.None? {
      return Reply(500, Failure(ProjectNotFound));
    }
    if body.MalformedJson? {
      return Reply(400, Failure(InvalidJson));
    }
    if body.Undecodable? {
      return Reply(500, Failure(body.error));
    }
    var devices := RequestedDevices(body.value);
    if devices.Failure? {
      return Reply(500, Failure(devices.error));
    }
    if !devices.value.JArr? {
      return Reply(400, Failure(DevicesNotList));
    }
    if env.folderError.Some? {
      return Reply(500, Failure(env.folderError.value));
    }
    var out := CollectRecords(Captures(devices.value.items, project.value, env), project.value, env);
    if out.Failure? {
      return Reply(500, Failure(out.error));
    }
    r := Reply(200, Success(Generated(GeneratedMessage(|out.value|), out.value)));
  }
}

=== FILE: wrappers.dfy ===
/** Failure-carrying values used throughout the model: a Python `None`
    becomes `None`, a raised exception becomes `Failure(message)`. */
module Wrappers {

  datatype Option<+T> = None | Some(value: T)

  datatype Result<+R> = Success(value: R) | Failure(error: string)

}
